=== FILE: README.md ===
# Chat client core, modelled in Dafny

This project models the client half of a small Java chat system (a Swing
window on top of an object-stream socket client). It covers three parts:

- **The client's mirror** (`ClientModel`): the client's map from
  conversation id to conversation, the `register` and `login` exchanges,
  the requests the client writes (`sendMessage`, `getHistory`,
  `createGroup`, `leaveGroup`), and the reading thread's event dispatch
  (ONLINE, OFFLINE, MESSAGE, HISTORY, CREATE_GROUP, LEAVE_GROUP, EXIT).
- **The main window's state** (`MainChatView`), without Swing:
  - the sidebar directory built from the mirror, and its name-to-id map;
  - presence updates, and group rows added and deleted;
  - the transcript and the search cycling;
  - the Send-button guard, the group dialog and the "Leave group" menu item.
- **The wire record** `Message`: its three constructors and its getters.

Every Java exception is a result value: `None`, `Thrown`, a loop that
stops with `Failed`, or an `Attempt` that `Threw` after some window
changes. Swing keeps such changes, so the model keeps them too.

The object streams are sequences of objects. The reading thread is a pure
function `Session.Run` over the objects the server sends.
`Session.ReadingLoop` is its iterative form.

Modules:

| module | file | contents |
|---|---|---|
| `Optional` | optional.dfy | `Option` |
| `JavaLang` | javalang.dfy | 32-bit `int`, `String.valueOf`, `Integer.parseInt`, `String.trim`, `split(" ")[0]` |
| `Conversations` | conversations.dfy | the conversation record, the mirror type, `List.remove(Object)` |
| `Protocol` | protocol.dfy | commands, `Message`, stream objects |
| `ClientModel` | clientmodel.dfy | client state, exchanges, requests, mirror transitions |
| `MainChatView` | mainchatview.dfy | window state and its operations |
| `Session` | session.dfy | client plus window plus what was sent; the reading loop; user actions |

## Model

| member | source | states |
|---|---|---|
| Protocol.CommandOnly | src/src/Message.java:22-24 | A command-only message has that command and reads back null content and a null file. |
| Protocol.WithContent | src/src/Message.java:31-34 | A content message reads back the command and the content it was built with, and a null file. |
| Protocol.WithFile | src/src/Message.java:35-39 | All three fields read back as given. |
| Protocol.GettersDetermineMessage | src/src/Message.java:41-51 | The three getters return every field: two messages are equal exactly when their getters agree. |
| Protocol.Token | src/src/ClientModel.java:106-121 | `content[i]` exists exactly when the content array is non-null and longer than i, and it is that element. Otherwise the access throws. |
| Protocol.IdToken | src/src/ClientModel.java:138 | `Integer.parseInt(content[i])` yields an id exactly when the token exists and parses; the id is what the token parses to. A missing token yields nothing. |
| Protocol.DecimalTokenReadsBack | src/src/ClientModel.java:226-228 | An id written as `String.valueOf(id)` at a position of a message's content is read back from that position as the same id. |
| JavaLang.ParseDecimal | src/src/ClientModel.java:138 | Every 32-bit id written with `String.valueOf` reads back unchanged with `Integer.parseInt`. |
| JavaLang.Decimal | src/src/ClientModel.java:211 | `String.valueOf(n)` starts with a minus sign exactly when n is negative. The digits after it read back as the magnitude of n. |
| JavaLang.ParseInt | src/src/ClientModel.java:138 | A number parses only from an optional sign followed by decimal digits. A negative result comes only from a leading minus. A run of digits, optionally after a minus, within the `int` range parses to the value it denotes. |
| JavaLang.Trim | src/MainChatView.java:156 | The result is a contiguous slice of the input. Only characters up to U+0020 lie outside it. Neither end of a non-empty result is such a character. The result is empty exactly when every character is. |
| JavaLang.FirstWord | src/MainChatView.java:274 | `split(" ")[0]` fails exactly on a non-empty all-space string. Otherwise it is the longest space-free prefix. |
| JavaLang.FirstWordOfWord | src/MainChatView.java:274 | A string without spaces is its own first word. |
| Conversations.RemoveFirst | src/src/ClientModel.java:145 | Removing an absent participant changes nothing. Otherwise exactly the first occurrence is cut out. |
| Conversations.FirstIndex | src/src/ClientModel.java:145 | The position `List.remove(Object)` removes at: the element there equals the name, and no earlier element does. |
| Conversations.RemoveFirstMultiset | src/src/ClientModel.java:145 | The participant list loses exactly one copy of the removed name, when there is one. |
| Conversations.RemoveFirstMembers | src/src/ClientModel.java:145 | Every other participant stays. A name listed once is gone afterwards. |
| ClientModel.TrueReplies | src/src/ClientModel.java:62 | A reply is positive exactly when it is a `Message` carrying TRUE. A null reply or an object of another class is a failure. |
| ClientModel.Register | src/src/ClientModel.java:58-70 | One REGISTER request carrying login, password and legal name. The result is true exactly when the first reply is a TRUE message. The client state never changes. |
| ClientModel.Login | src/src/ClientModel.java:78-91 | One LOGIN request is written. A non-TRUE reply leaves the client unchanged. A TRUE reply sets the own login. The result is true exactly when a map or null snapshot follows, and that snapshot becomes the mirror. Otherwise the mirror is left an empty map and the result is false. |
| ClientModel.SendMessage | src/src/ClientModel.java:183-189 | The MESSAGE request reads back login, id and text. For a mirrored id, exactly `login: text` is appended to that conversation and nothing else changes. Otherwise the client is unchanged. |
| ClientModel.HistoryRequest | src/src/ClientModel.java:208-213 | A HISTORY request whose token parses back to the requested id. |
| ClientModel.LeaveRequest | src/src/ClientModel.java:226-233 | A LEAVE_GROUP request whose tokens read back as the login and the id. |
| ClientModel.CreateGroupRequest | src/src/ClientModel.java:215-224 | A bare CREATE_GROUP message, then a new conversation with that name, those participants and no messages. |
| ClientModel.ChatLine | src/src/ClientModel.java:117-121 | A chat line shows "You" for the own login, otherwise the sender. |
| ClientModel.AppendHistory | src/src/ClientModel.java:123-126 | HISTORY succeeds exactly for a mirrored id. It appends the received lines to that log only. |
| ClientModel.BindGroup | src/src/ClientModel.java:128-133 | CREATE_GROUP adds or overwrites exactly one id. Every other id keeps its conversation. |
| ClientModel.ApplyLeave | src/src/ClientModel.java:135-145 | LEAVE_GROUP succeeds exactly with a login and a mirrored id. For the own login only that id goes. For another user only that user leaves that conversation's participants. |
| ClientModel.ApplyEvent | src/src/ClientModel.java:107-152 | Events without an id leave the mirror as it is. No event touches a conversation other than the one it names. The keys change as each event says. |
| ClientModel.HistoryTwiceRepeatsLines | src/src/ClientModel.java:125 | HISTORY appends rather than replaces: the same reply twice leaves its lines twice. |
| ClientModel.LeaveUndoesCreate | src/src/ClientModel.java:128-145 | The own LEAVE_GROUP of a freshly created id restores the mirror exactly. |
| ClientModel.OtherLeaveKeepsOthers | src/src/ClientModel.java:145 | Another member leaving keeps the name, the log and every other participant. |
| MainChatView.SameEntryEquivalence | src/MainChatView.java:459-465 | `ListEntry.equals` is reflexive, symmetric and transitive. A row equals itself whatever its status or icon become. |
| MainChatView.NextRow | src/MainChatView.java:348 | `(getSelectedIndex() + 1) % getSize()` is a row of the list: the row after the selected one, or row 0 after the last row or when nothing is selected. |
| MainChatView.IndexOfName | src/MainChatView.java:459-465 | `indexOf` with a name-only probe finds the first row with that name. It gives -1 exactly when no row has the name. |
| MainChatView.SetStatus | src/MainChatView.java:302-312 | Setting the status of the row `indexOf` finds succeeds exactly when some row has the name. Exactly the first such row takes the status, and nothing else changes. With no such row, `get(-1)` throws. |
| MainChatView.UpdateOnline | src/MainChatView.java:302-306 | Succeeds exactly when some row has the name. Exactly the first such row becomes "online". |
| MainChatView.UpdateOffline | src/MainChatView.java:308-312 | Succeeds exactly when some row has the name. Exactly the first such row becomes "offline". |
| MainChatView.OnlineThenOfflineRestores | src/MainChatView.java:302-312 | ONLINE then OFFLINE on an offline row gives back the same window state. |
| MainChatView.UpdateRegister | src/MainChatView.java:297-300 | One offline row is added at the end and the name is bound to the id. Other bindings and the rest of the state stay. |
| MainChatView.UpdateGroups | src/MainChatView.java:339-343 | One GROUP row is added at the end and the name is bound to the id. Other bindings and the rest of the state stay. |
| MainChatView.AppendedRowIsFound | src/MainChatView.java:297-343 | A row appended under a new name is the one `indexOf` later finds. |
| MainChatView.SelectionChanged | src/MainChatView.java:519-537 | The listener clears the selected row's icon in every case. It finishes exactly when the row's name is bound, and then it requests that conversation's history and forgets the matches. An unbound name throws after the icon is cleared, with no request and the matches kept. |
| MainChatView.SetSelectedIndex | src/MainChatView.java:515-539 | An index past the end, or the row already selected, changes nothing. Any other row becomes selected and stays selected even when the listener throws. The listener's effects are as above, and no other row changes. |
| MainChatView.Reselect | src/MainChatView.java:349 | After a row is removed, a selection above it stays and sends nothing. A selection below it moves up one row and requests that row's history once. A selection on it goes to row 0 and requests row 0's history twice, once from the nested listener run and once after. It throws exactly when the row the selection lands on is unbound, or when no row is left, and then it has requested nothing. A finished response leaves a valid selection. |
| MainChatView.RemoveFromSelected | src/MainChatView.java:349-350 | Removing an absent name drops only its binding and requests nothing. A finished removal leaves the name unbound and one row fewer when the name had a row. A removal that throws has not yet dropped the binding and has requested nothing. |
| MainChatView.RemoveFromSelectedThrows | src/MainChatView.java:349-350 | The removal throws exactly when the removed row lies at or above the selection and the row selected next is unbound, or no row is left. |
| MainChatView.RemoveFromSelectedFrame | src/MainChatView.java:349-350 | A finished removal drops exactly the first row with the name and the name's binding. The transcript, picked line, input and the other rows' names and statuses stay, and a row is selected. |
| MainChatView.RemoveFromSelectedSelection | src/MainChatView.java:349 | After a finished removal the selection stays on the same conversation's row, unless that row was the one removed, in which case row 0 is selected. |
| MainChatView.RemoveFromSelectedRequests | src/MainChatView.java:349 | A removal below the selection, or of an absent name, requests nothing. One above it requests the selected row's history once. Removing the selected row requests the new row 0's history twice. A removal that throws has requested nothing. |
| MainChatView.RemovedBelowSelection | src/MainChatView.java:349 | Removing a row below the selection finishes and requests nothing. |
| MainChatView.RemovedAboveSelection | src/MainChatView.java:349 | Removing a row above the selection requests the history of the selected row, which moved up, exactly once. |
| MainChatView.RemovedSelectedRow | src/MainChatView.java:520-525 | Removing the selected row requests the history of the new row 0 exactly twice. |
| MainChatView.DeleteGroup | src/MainChatView.java:345-351 | An empty list throws on the division by zero, with nothing changed. The lemmas below state the rest. |
| MainChatView.DeleteGroupLastRowThrows | src/MainChatView.java:348-349 | Removing the only row throws: the listener finds nothing to select. |
| MainChatView.DeleteGroupFinishes | src/MainChatView.java:345-351 | When every row's name is bound, `deleteGroup` finishes, unless it removes the only row. |
| MainChatView.DeleteGroupFrame | src/MainChatView.java:345-351 | A finished `deleteGroup` drops exactly the first row with the name and that name's binding. It keeps the transcript, the picked line, the input, and the other rows' names and statuses, and leaves a row selected. |
| MainChatView.DeleteGroupSelection | src/MainChatView.java:348-349 | A finished `deleteGroup` leaves the selection on the row it moved to. If that row was the one removed, row 0 is selected. |
| MainChatView.DeleteGroupRequests | src/MainChatView.java:348-349 | A finished `deleteGroup` first requests the history of the row it moves to, unless that row was already selected. It then requests nothing more when the removed row lies below that row or is absent. It requests that row once more when the removed row lies above it, and the new row 0 twice when the removed row is that row. |
| MainChatView.DeleteGroupDone | src/MainChatView.java:345-351 | A finished `deleteGroup` is a finished move followed by a finished removal, with their requests in that order. The move requests exactly the history of the row moved to, unless it was already selected. |
| MainChatView.MovedSelection | src/MainChatView.java:348 | Moving the selection keeps the rows' names, the bindings, and where a name is found. |
| MainChatView.DeleteUndoesUpdateGroups | src/MainChatView.java:339-351 | Deleting a group just added under a fresh name restores the rows and bindings. It always finishes when the list was non-empty and every row was bound. |
| MainChatView.UpdateGroupsUnderFreshName | src/MainChatView.java:339-343 | A group row added under a fresh name is the one a later removal finds. Removing it and its binding gives back the old rows and bindings. |
| MainChatView.Statuses | src/MainChatView.java:246-247 | The rows' statuses, one per row, in order. |
| MainChatView.IsPersonAcceptsGroupRows | src/MainChatView.java:353-355 | As written, `isPerson` rejects every row a person gets, whether added by `updateRegister` or built for a private conversation. It accepts every group row. |
| MainChatView.DialogCandidates | src/MainChatView.java:246-250 | The dialog offers as many entries as there are rows with status "GROUP", and every offer is the string "GROUP". |
| MainChatView.GroupParticipants | src/MainChatView.java:271-278 | Fails exactly when a chosen value is all spaces. Otherwise each chosen value's first word, in order, then the own login. |
| MainChatView.LeaveMenu | src/MainChatView.java:553-558 | No selection throws. A "GROUP" status warns. Any other status leaves exactly when it is bound as a name, with that id, and throws otherwise. |
| MainChatView.UpdateHistory | src/MainChatView.java:325-337 | The transcript becomes exactly the history, and its selection is cleared. Nothing else changes. |
| MainChatView.UpdateMessages | src/MainChatView.java:314-323 | It throws exactly when nothing is selected, or when the sender has no row. For the open row's sender, `login: text` is appended and the matches are forgotten. For another sender only the first row with that name gets the icon. |
| MainChatView.MessageIconClearedOnSelect | src/MainChatView.java:519-523 | The icon set for a sender is cleared when that sender's row is selected, even if the listener then throws. |
| MainChatView.Matches | src/MainChatView.java:187-193 | Exactly the matching transcript lines, in increasing order. |
| MainChatView.PositionOf | src/MainChatView.java:196 | The first position of the selected line among the matches, or -1 when it is not among them. |
| MainChatView.Search | src/MainChatView.java:181-198 | With no usable matches it recomputes them and selects the first, and it keeps the selection when none match. Otherwise it selects the match after the current one, wrapping around. |
| MainChatView.SearchLandsOnMatch | src/MainChatView.java:194-196 | A search that moves the selection moves it onto a match. |
| MainChatView.SearchCyclesThroughMatches | src/MainChatView.java:196 | From match k a search selects match k+1. The last match wraps to the first. |
| MainChatView.SearchEdited | src/MainChatView.java:591-605 | Editing the search text forgets the matches and nothing else. |
| MainChatView.SendText | src/MainChatView.java:156-167 | Text is sent exactly when the input has a character above U+0020. What is sent is the trimmed, non-empty input. |
| MainChatView.OwnPrefix | src/MainChatView.java:83-84 | The length of the leading run of participants equal to the own login. |
| MainChatView.FirstOther | src/MainChatView.java:83-90 | The loop's `break` picks a participant other than the own login that comes after only own logins. There is none exactly when every participant is the own login. |
| MainChatView.FirstOtherSkipsOwn | src/MainChatView.java:83-90 | A private conversation's label is the first participant other than the own login. There is none exactly when every participant is the own login. |
| MainChatView.Label | src/MainChatView.java:81-95 | A group contributes its name. A private conversation contributes a participant other than the own login, and nothing exactly when every participant is the own login. |
| MainChatView.RowFor | src/MainChatView.java:81-95 | A conversation gets a row exactly when it has a label. The row carries the label and no icon. Its status is "offline" exactly for a private conversation and "GROUP" exactly for a group. |
| MainChatView.Listed | src/MainChatView.java:79-97 | The positions of the visit order whose conversation gets a row, in increasing order. |
| MainChatView.ListedComplete | src/MainChatView.java:79-97 | No conversation that gets a row is skipped. |
| MainChatView.Directory | src/MainChatView.java:79-97 | Every row's name is bound, and no row has the icon. Each binding names a conversation carrying that label. Every labelled conversation's label is bound, and a label shared by several conversations is bound to the last of them in visit order, as repeated `put` calls leave it. |
| MainChatView.LastLabelledSkip | src/MainChatView.java:79-97 | A conversation without a label leaves every binding's last-wins witness in place. |
| MainChatView.LastLabelledBind | src/MainChatView.java:79-97 | Binding a conversation's label makes it that label's last-wins witness and keeps every other binding's witness. |
| MainChatView.DirectoryFollowsListed | src/MainChatView.java:79-97 | The rows are exactly the rows of the listed conversations, in visit order. |
| MainChatView.DirectoryCoversMirror | src/MainChatView.java:79-97 | Over the whole mirror, every labelled conversation has its label bound, and every row is the row of some conversation. |
| MainChatView.DirectoryEmptyIff | src/MainChatView.java:79-97 | The list is empty exactly when no conversation of the mirror has a label. |
| MainChatView.Open | src/MainChatView.java:78-106 | The new window starts with an empty transcript and input, and its rows and bindings are the directory. An empty list has no selection and requests nothing. A non-empty list selects row 0 and requests exactly that conversation's history. |
| MainChatView.OpenShowsMirror | src/MainChatView.java:78-106 | The opened window shows one row per labelled conversation, in visit order. Its list is empty exactly when no conversation has a label. Every label is bound to the last conversation in visit order that carries it. |
| Session.HistoryRequests | src/src/ClientModel.java:208-213 | One HISTORY request per requested id, in order. |
| Session.Step | src/src/ClientModel.java:105-152 | One iteration reads 1 to 3 objects, and never a message as a payload. It stops with "exited" only on an EXIT message, and with "null read" only on a null object. It keeps the own login and whether a window exists. It only adds to what was sent. It runs out of input only when no later message exists. |
| Session.OnPresence | src/src/ClientModel.java:108-116 | ONLINE and OFFLINE change at most the window, and a stop leaves the session as it was. Without a window the iteration goes on exactly for ONLINE or when the login is present. With a window it goes on exactly when some row has the login, and then that first row has the new status. |
| Session.OnChat | src/src/ClientModel.java:117-122 | MESSAGE keeps the session. It stops exactly when the sender is missing, or when a window exists and the text is missing. |
| Session.OnHistory | src/src/ClientModel.java:123-127 | HISTORY goes on exactly when the payload is a list, the id parses and is mirrored, and a window exists. Then the lines are appended to that log and the window shows exactly them. Without a window the lines are still appended before the loop stops. |
| Session.OnCreateGroup | src/src/ClientModel.java:128-134 | CREATE_GROUP goes on exactly when the payload is a conversation and both the mirror and the window exist. The mirror binds the id to it and the window lists it. Without a window the binding still happens before the loop stops. |
| Session.OnLeaveGroup | src/src/ClientModel.java:135-146 | A stop leaves the client as it was. Another user's leave of a mirrored id goes on, dropping that user from the participants and touching nothing else. The own leave goes on only when `deleteGroup` finishes, and then the id leaves the mirror. |
| Session.StepPresenceEffect | src/src/ClientModel.java:108-116 | ONLINE without a window does nothing. OFFLINE without a window does nothing when it carries a login, and stops the loop when the login is missing, since its console line reads the login outside the window test. With a window, the login's row takes the new status, and a missing login or row stops the loop with the session unchanged. |
| Session.StepChatKeeps | src/src/ClientModel.java:117-122 | MESSAGE never changes the session. It stops the loop exactly when the sender token is missing, or when a window exists and the text token is missing. |
| Session.StepOtherCommands | src/src/ClientModel.java:147-151 | EXIT stops the loop, and the other commands are read and ignored. |
| Session.StepHistoryEffect | src/src/ClientModel.java:123-127 | A HISTORY iteration that goes on has read two objects. The mirror has taken the lines for the parsed id, the window shows exactly those lines, and nothing else changed. |
| Session.StepCreateGroupEffect | src/src/ClientModel.java:128-134 | CREATE_GROUP without a mirror or a window stops the loop. One that goes on has read three objects. The mirror binds the conversation to the id, and the window lists it. Nothing else changed. |
| Session.StepLeaveGroupEffect | src/src/ClientModel.java:135-146 | A LEAVE_GROUP iteration that goes on has applied the leave to the mirror. For another user the window and what was sent are unchanged. For the own login `deleteGroup` finished on the window. One that stops leaves the client as it was. |
| Session.Run | src/src/ClientModel.java:102-153 | The loop stops as exited only after reading an EXIT message, and on a null read only after reading a null object. |
| Session.ReadingLoop | src/src/ClientModel.java:98-165 | The iterative loop ends exactly as the recursive reading function does. |
| Session.StepExtends | src/src/ClientModel.java:123-133 | An iteration that did not run out of input is unchanged by objects arriving after it. |
| Session.RunExtends | src/src/ClientModel.java:102-161 | Once the loop stops for any reason but the end of the stream, later objects are never read. |
| Session.ExitPrevents | src/src/ClientModel.java:147-149 | A stream ending in an EXIT message never runs out: the loop stops at or before it. |
| Session.ExitEndsReading | src/src/ClientModel.java:104-149 | Nothing after an EXIT message is ever applied. |
| Session.RunPreserves | src/src/ClientModel.java:102-161 | The reading loop keeps the own login and keeps or lacks a window throughout. It only adds to what was sent. It keeps a session valid. |
| Session.HistoryReplyEffect | src/src/ClientModel.java:123-126 | A HISTORY reply for a mirrored id, with a window, consumes two objects. It appends the lines to that log and shows exactly those lines. |
| Session.OwnLeaveRemovesConversation | src/src/ClientModel.java:135-143 | An echoed own leave request either stops the loop on an exception or removes exactly that conversation from the mirror. |
| Session.Start | src/MainChatView.java:55-106 | The window opens exactly when the mirror is not null. It then shows the opened directory, the only things written are its history requests. When the login is set, the session is valid. |
| Session.Send | src/MainChatView.java:151-168 | With no selection, an unbound row or blank input nothing changes. Otherwise one MESSAGE request goes out, the client echo is applied, `login: text` is shown and the input is cleared. |
| Session.SendEchoesOneLine | src/MainChatView.java:161-162 | After a send, the mirrored log and the transcript end with the same line. |
| Session.Select | src/MainChatView.java:515-539 | A click on a new row selects it and clears its icon, even when the listener throws. A bound row writes exactly one history request, and an unbound row writes nothing. Re-selecting, or an index past the end, changes nothing. The client never changes. |
| Session.LeaveMenu | src/MainChatView.java:550-559 | Only a `Leave` choice writes one leave request with the own login. Nothing else changes. |
| Session.LeaveMenuNeverLeavesGroups | src/MainChatView.java:553-555 | With a group row selected, "Leave group" writes nothing. |
| Session.CreateGroup | src/MainChatView.java:265-281 | Rows chosen from the dialog's offers yield one CREATE_GROUP request. Its participants are one "GROUP" per chosen row, then the own login. |

## Left out

- Sockets, streams and threads. Reading and writing are sequences of objects, and the reading thread runs sequentially. Its concurrency with the Swing event thread is not modelled.
- Swing rendering: cell renderers, layout, icons (a flag), dialogs, and the conversation-info label.
- `connect()` and `finalize()`. These are socket handling only.
- `Conversation` and `Protocol` are not part of this model. The conversation's shape, and the command set, are what the client code relies on.
- The server and its database, including the server's hard-coded credentials.
- The search pattern `(?i:(?s).*text.*)` is an opaque predicate `hit`, so regular expressions are not modelled.
- JavaLang.ParseInt: accepts only ASCII digits. Java's `parseInt` also accepts other Unicode decimal digits.
- Null strings inside a content array, and a null `login` passed to `sendMessage`, cannot be expressed.
- ClientModel.SendMessage: requires a set login. Without one the Java writes a null token.
- Session.Send: requires a set login, for the same reason.
- Session.Step: a null `Integer` or `Conversation` after CREATE_GROUP stops the loop without inserting the null key or value that Java's `HashMap.put` would store. A null id also stops before reading the conversation object.
- Session.Step: the MESSAGE branch calls `updateMessages` with one argument, but the method takes two. Its window effect is therefore left out, and the window is unchanged. `MainChatView.UpdateMessages` models the two-argument method on its own.
- Console output (`System.out.println`) is dropped. Only its reading of `tokens[0]` for OFFLINE is kept, since that read can throw and end the loop.
- `updateHistory` runs later on the event thread. The model applies it at once.
- MainChatView.SetSelectedIndex: the listener's adjusting-event check is not modelled; every selection change is taken as a final one. An `IOException` from writing the request is not modelled either, since writing is a sequence append.
- MainChatView.Reselect: only the single-row removal that `removeElement` performs is modelled, not Swing's general interval removal.
- Session.Start: it does not model the window registering itself with the client before a null mirror throws.

## Behaviour kept as written

These look like defects in the Java. The model keeps them as written:

- `isPerson(s)` is true exactly for the status "GROUP". As a result, the group dialog offers the string "GROUP" once per group row (`MainChatView.DialogCandidates`, `Session.CreateGroup`).
- The "Leave group" item warns on group rows and looks up a person row's status as a name. A group is therefore never left from the menu (`Session.LeaveMenuNeverLeavesGroups`).
- The Search button calls `matches.get(0)` even when nothing matched. That throws and leaves an empty match list (`MainChatView.Search`).
- The Send guard's test against `" "` can never succeed after `trim()` (`MainChatView.SendText`).

=== FILE: clientmodel.dfy ===
/**
 The client side of the protocol (`ClientModel`): its own login, the mirror
 of its conversations, the replies it waits for (`register`, `login`), the
 requests it writes, and each inbound event as a pure transition of the
 mirror. A Java exception (a null dereference of a missing conversation, a
 null login) is the result None.
 */
module ClientModel {
  import opened Optional
  import opened JavaLang
  import opened Conversations
  import opened Protocol

  /** The client's state: its own login and the mirror, both null until a login reply arrives. */
  datatype Client = Client(login: Option<string>, mirror: Option<Mirror>)

  /** A client that has connected but not logged in. */
  const Connected: Client := Client(None, None)

  /** What a request/reply exchange leaves behind: the verdict, the client, and what was written. */
  datatype Exchange = Exchange(ok: bool, client: Client, sent: seq<Obj>)

  /** The reply object is a `Message` whose command is TRUE (null or another class is a failure). */
  predicate IsTrueReply(o: Obj) {
    o.MsgObj? && o.msg.GetCommand() == True
  }

  /**
   A reply counts as positive only when it is a `Message` carrying TRUE; a
   null reply, an object of another class or any other command is a failure.
   */
  lemma TrueReplies(m: Message, o: Obj)
    ensures IsTrueReply(MsgObj(m)) <==> m.GetCommand() == True
    ensures !o.MsgObj? ==> !IsTrueReply(o)
    ensures IsTrueReply(MsgObj(CommandOnly(True)))
  {
  }

  /** `register`: writes REGISTER [login, password, legalName], reads one reply, never touches the client state. */
  function Register(c: Client, login: string, password: string, legalName: string, input: seq<Obj>): (r: Exchange)
    ensures r.ok <==> |input| > 0 && IsTrueReply(input[0])
    ensures r.client == c
    ensures |r.sent| == 1 && r.sent[0].MsgObj? && r.sent[0].msg.GetCommand() == Command.Register
    ensures r.sent[0].msg.GetContent() == Some([login, password, legalName])
  {
    var request := WithContent(Command.Register, [login, password, legalName]);
    Exchange(|input| > 0 && IsTrueReply(input[0]), c, [MsgObj(request)])
  }

  /**
   `login`: writes LOGIN [username, password] and reads the reply. On TRUE the
   own login is set and the mirror becomes a new empty map, then the snapshot
   object replaces it; a snapshot that is not a map (or is missing) throws
   after those two assignments, and login reports failure.
   */
  function Login(c: Client, username: string, password: string, input: seq<Obj>): (r: Exchange)
    ensures r.sent == [MsgObj(WithContent(Command.Login, [username, password]))]
    ensures !(|input| > 0 && IsTrueReply(input[0])) ==> !r.ok && r.client == c
    ensures |input| > 0 && IsTrueReply(input[0]) ==> r.client.login == Some(username)
    ensures r.ok <==> |input| > 1 && IsTrueReply(input[0]) && (input[1].MapObj? || input[1].Null?)
    ensures r.ok && input[1].MapObj? ==> r.client.mirror == Some(input[1].convs)
    ensures r.ok && input[1].Null? ==> r.client.mirror == None
    ensures |input| > 0 && IsTrueReply(input[0]) && !r.ok ==> r.client.mirror == Some(map[])
  {
    var sent := [MsgObj(WithContent(Command.Login, [username, password]))];
    if |input| == 0 || !IsTrueReply(input[0]) then Exchange(false, c, sent)
    else
      var emptied := Client(Some(username), Some(map[]));
      if |input| == 1 then Exchange(false, emptied, sent)
      else match input[1]
        case MapObj(snapshot) => Exchange(true, Client(Some(username), Some(snapshot)), sent)
        case Null => Exchange(true, Client(Some(username), None), sent)
        case _ => Exchange(false, emptied, sent)
  }

  /**
   The mirror `m'` is `m` with `lines` appended to the end of conversation
   `id`'s log; the conversation's name and participants, and every other
   conversation, are unchanged.
   */
  predicate AppendsAt(m: Mirror, m': Mirror, id: Int32, lines: seq<string>) {
    && id in m
    && m'.Keys == m.Keys
    && m'[id] == m[id].(messages := m[id].messages + lines)
    && forall k :: k in m && k != id ==> m'[k] == m[k]
  }

  /** The line the client shows for its own message: `login + ": " + text`. */
  function EchoLine(login: string, text: string): string {
    login + ": " + text
  }

  /**
   `sendMessage(groupId, text)`: writes MESSAGE [login, groupId, text] and then
   appends the local echo to the mirrored log; a conversation missing from
   the mirror (or a null mirror) throws before the echo and leaves the state
   as it was. Sending is only reachable once a login reply has set the login.
   */
  function SendMessage(c: Client, id: Int32, text: string): (r: (Client, Message))
    requires c.login.Some?
    ensures r.1.GetCommand() == Chat && r.1.GetContent() == Some([c.login.value, Decimal(id), text])
    ensures Token(r.1, 0) == c.login && IdToken(r.1, 1) == Some(id) && Token(r.1, 2) == Some(text)
    ensures r.0.login == c.login
    ensures c.mirror.Some? && id in c.mirror.value ==>
              r.0.mirror.Some? && AppendsAt(c.mirror.value, r.0.mirror.value, id, [c.login.value + ": " + text])
    ensures !(c.mirror.Some? && id in c.mirror.value) ==> r.0 == c
  {
    ParseDecimal(id);
    var request := WithContent(Chat, [c.login.value, Decimal(id), text]);
    match c.mirror
    case None => (c, request)
    case Some(m) =>
      if id !in m then (c, request)
      else
        var conv := m[id];
        (c.(mirror := Some(m[id := conv.(messages := conv.messages + [EchoLine(c.login.value, text)])])), request)
  }

  /** `getHistory(groupId)`: HISTORY [groupId]; the id reads back from the request. */
  function HistoryRequest(id: Int32): (m: Message)
    ensures m.GetCommand() == History && IdToken(m, 0) == Some(id)
  {
    ParseDecimal(id);
    WithContent(History, [Decimal(id)])
  }

  /** `leaveGroup(id)`: LEAVE_GROUP [login, id]; both fields read back from the request. */
  function LeaveRequest(login: string, id: Int32): (m: Message)
    ensures m.GetCommand() == Command.LeaveGroup && Token(m, 0) == Some(login) && IdToken(m, 1) == Some(id)
  {
    ParseDecimal(id);
    WithContent(Command.LeaveGroup, [login, Decimal(id)])
  }

  /** `createGroup(name, participants)`: a bare CREATE_GROUP message followed by a new conversation. */
  function CreateGroupRequest(name: string, participants: seq<string>): (objs: seq<Obj>)
    ensures |objs| == 2 && objs[0] == MsgObj(CommandOnly(CreateGroup))
    ensures objs[1].ConvObj? && objs[1].conv.name == name && objs[1].conv.participants == participants
    ensures objs[1].conv.messages == []
  {
    [MsgObj(CommandOnly(CreateGroup)), ConvObj(NewConversation(name, participants))]
  }

  /**
   How a MESSAGE event is rendered: the sender, or "You" when it is the own
   login, then the text. The reading loop never reaches this rendering: its
   window hook passes one argument to the two-argument `updateMessages`, so
   `Session.OnChat` leaves the window as it was.
   */
  function ChatLine(own: Option<string>, sender: string, text: string): (line: string)
    ensures own == Some(sender) ==> line == "You: " + text
    ensures own != Some(sender) ==> line == sender + ": " + text
  {
    var shown := if own == Some(sender) then "You" else sender;
    shown + ": " + text
  }

  /** The inbound events, as far as they concern the mirror. */
  datatype MirrorEvent =
    | PresenceEvent(who: string, online: bool)
    | ChatEvent(sender: string)
    | HistoryEvent(id: Int32, received: seq<string>)
    | GroupCreatedEvent(id: Int32, conv: Conversation)
    | GroupLeftEvent(user: string, id: Int32)
    | ExitEvent
    | OtherEvent

  /** HISTORY(id): the received lines are added to the end of the mirrored log; a missing id throws. */
  function AppendHistory(m: Mirror, id: Int32, received: seq<string>): (r: Option<Mirror>)
    ensures r.Some? <==> id in m
    ensures r.Some? ==> AppendsAt(m, r.value, id, received)
  {
    if id !in m then None
    else Some(m[id := m[id].(messages := m[id].messages + received)])
  }

  /** CREATE_GROUP(id, conversation): binds `id`, inserting or overwriting; no other id changes. */
  function BindGroup(m: Mirror, id: Int32, conv: Conversation): (r: Mirror)
    ensures r.Keys == m.Keys + {id} && r[id] == conv
    ensures forall k :: k in m && k != id ==> r[k] == m[k]
  {
    m[id := conv]
  }

  /**
   LEAVE_GROUP(user, id): when `user` is the own login the conversation goes;
   otherwise `user` is dropped from its participants and it stays. A null
   own login or a missing id throws.
   */
  function ApplyLeave(m: Mirror, own: Option<string>, user: string, id: Int32): (r: Option<Mirror>)
    ensures r.Some? <==> own.Some? && id in m
    ensures r.Some? && own == Some(user) ==>
              r.value.Keys == m.Keys - {id} && forall k :: k in r.value ==> r.value[k] == m[k]
    ensures r.Some? && own != Some(user) ==>
              && r.value.Keys == m.Keys
              && r.value[id] == m[id].(participants := RemoveFirst(m[id].participants, user))
              && forall k :: k in m && k != id ==> r.value[k] == m[k]
  {
    if own.None? || id !in m then None
    else if own.value == user then Some(m - {id})
    else Some(m[id := m[id].(participants := RemoveFirst(m[id].participants, user))])
  }

  /** The conversation id an event is about, if any. */
  function EventId(ev: MirrorEvent): Option<Int32> {
    match ev
    case HistoryEvent(id, _) => Some(id)
    case GroupCreatedEvent(id, _) => Some(id)
    case GroupLeftEvent(_, id) => Some(id)
    case _ => None
  }

  /**
   The event dispatch of the reading thread, restricted to the mirror:
   ONLINE, OFFLINE, MESSAGE, EXIT and any other command leave it as it is;
   HISTORY appends, CREATE_GROUP binds, LEAVE_GROUP removes; no event touches
   a conversation other than the one it names.
   */
  function ApplyEvent(m: Mirror, own: Option<string>, ev: MirrorEvent): (r: Option<Mirror>)
    ensures EventId(ev).None? ==> r == Some(m)
    ensures ev.HistoryEvent? ==> (r.Some? <==> ev.id in m) && (r.Some? ==> AppendsAt(m, r.value, ev.id, ev.received))
    ensures ev.GroupCreatedEvent? ==> r.Some? && r.value.Keys == m.Keys + {ev.id} && r.value[ev.id] == ev.conv
    ensures ev.GroupLeftEvent? ==> (r.Some? <==> own.Some? && ev.id in m)
    ensures ev.GroupLeftEvent? && r.Some? ==> r.value.Keys == (if own == Some(ev.user) then m.Keys - {ev.id} else m.Keys)
    ensures r.Some? ==> forall k :: k in m && Some(k) != EventId(ev) ==> k in r.value && r.value[k] == m[k]
  {
    match ev
    case HistoryEvent(id, received) => AppendHistory(m, id, received)
    case GroupCreatedEvent(id, conv) => Some(BindGroup(m, id, conv))
    case GroupLeftEvent(user, id) => ApplyLeave(m, own, user, id)
    case _ => Some(m)
  }

  /** HISTORY appends rather than replaces: the same reply applied twice leaves the lines in the log twice. */
  lemma HistoryTwiceRepeatsLines(m: Mirror, id: Int32, received: seq<string>)
    requires id in m
    ensures AppendHistory(m, id, received).Some?
    ensures AppendHistory(AppendHistory(m, id, received).value, id, received).Some?
    ensures AppendHistory(AppendHistory(m, id, received).value, id, received).value[id].messages
            == m[id].messages + received + received
  {
  }

  /** The own LEAVE_GROUP undoes a CREATE_GROUP of a new id. */
  lemma LeaveUndoesCreate(m: Mirror, own: string, id: Int32, conv: Conversation)
    requires id !in m
    ensures ApplyLeave(BindGroup(m, id, conv), Some(own), own, id) == Some(m)
  {
    assert BindGroup(m, id, conv) - {id} == m;
  }

  /** Another member's LEAVE_GROUP keeps every other participant and the whole log. */
  lemma OtherLeaveKeepsOthers(m: Mirror, own: string, user: string, id: Int32, p: string)
    requires id in m && user != own && p != user
    ensures ApplyLeave(m, Some(own), user, id).Some?
    ensures var conv := ApplyLeave(m, Some(own), user, id).value[id];
            conv.name == m[id].name && conv.messages == m[id].messages
            && (p in conv.participants <==> p in m[id].participants)
  {
    RemoveFirstMembers(m[id].participants, user, p);
  }
}

=== FILE: conversations.dfy ===
/**
 The conversation record the client keeps per conversation id. Its class is
 not part of this model; the shape here is the one the client relies on: a
 name (the literal "private" marks a two-party conversation), an ordered
 participant list with `List` semantics, and an ordered list of rendered
 message lines.
 */
module Conversations {
  import opened JavaLang

  datatype Conversation = Conversation(name: string, participants: seq<string>, messages: seq<string>)

  /** The client-side mirror: conversation id to conversation. */
  type Mirror = map<Int32, Conversation>

  /** The name that marks a two-party conversation. */
  const PrivateName: string := "private"

  predicate IsPrivate(c: Conversation) {
    c.name == PrivateName
  }

  /** A fresh conversation as the client builds it for a group request: no messages yet. */
  function NewConversation(name: string, participants: seq<string>): (c: Conversation)
    ensures c.name == name && c.participants == participants && |c.messages| == 0
  {
    Conversation(name, participants, [])
  }

  /** `List.indexOf(Object)` for an element that is present: its first position. */
  function FirstIndex(xs: seq<string>, x: string): (i: nat)
    requires x in xs
    ensures i < |xs| && xs[i] == x && x !in xs[..i]
  {
    if xs[0] == x then 0
    else
      var j := FirstIndex(xs[1..], x);
      assert xs[..j + 1] == [xs[0]] + xs[1..][..j];
      j + 1
  }

  /** `List.remove(Object)`: drops the first element equal to `x`, if there is one. */
  function RemoveFirst(xs: seq<string>, x: string): (r: seq<string>)
    ensures x !in xs ==> r == xs
    ensures x in xs ==> r == xs[..FirstIndex(xs, x)] + xs[FirstIndex(xs, x) + 1..]
  {
    if |xs| == 0 then []
    else
      assert xs == [xs[0]] + xs[1..];
      if xs[0] == x then xs[1..]
      else
        var rest := RemoveFirst(xs[1..], x);
        assert x in xs[1..] ==>
          var j := FirstIndex(xs[1..], x);
          xs[..j + 1] == [xs[0]] + xs[1..][..j] && xs[j + 2..] == xs[1..][j + 1..];
        [xs[0]] + rest
  }

  /** Removing a member takes away exactly one copy of it, when there is one, and nothing else. */
  lemma RemoveFirstMultiset(xs: seq<string>, x: string)
    ensures multiset(RemoveFirst(xs, x)) == multiset(xs) - multiset{x}
  {
    if x in xs {
      var i := FirstIndex(xs, x);
      var a, b := xs[..i], xs[i + 1..];
      assert xs == a + [x] + b;
      assert multiset(xs) == multiset(a) + multiset{x} + multiset(b);
      assert multiset(RemoveFirst(xs, x)) == multiset(a) + multiset(b);
    } else {
      assert multiset(xs)[x] == 0;
      assert multiset(xs) - multiset{x} == multiset(xs);
    }
  }

  /** Removing a member keeps every other member, and a member listed once is gone afterwards. */
  lemma RemoveFirstMembers(xs: seq<string>, x: string, y: string)
    ensures y != x ==> (y in RemoveFirst(xs, x) <==> y in xs)
    ensures multiset(xs)[x] <= 1 ==> x !in RemoveFirst(xs, x)
  {
    var r := RemoveFirst(xs, x);
    RemoveFirstMultiset(xs, x);
    assert y in r <==> multiset(r)[y] > 0;
    assert y in xs <==> multiset(xs)[y] > 0;
    assert x in r <==> multiset(r)[x] > 0;
  }
}

=== FILE: javalang.dfy ===
/**
 The few pieces of java.lang the chat client leans on, with their Java
 behaviour written out: the 32-bit `int`, `String.valueOf(int)`,
 `Integer.parseInt` / `Integer.valueOf(String)`, `String.trim()` and
 `s.split(" ")[0]`.
 */
module JavaLang {
  import opened Optional

  /** Java's `int`. */
  type Int32 = x: int | -0x8000_0000 <= x < 0x8000_0000

  predicate IsDigit(c: char) {
    '0' <= c <= '9'
  }

  predicate AllDigits(s: string) {
    forall i :: 0 <= i < |s| ==> IsDigit(s[i])
  }

  function DigitValue(c: char): nat
    requires IsDigit(c)
  {
    (c as int) - ('0' as int)
  }

  function DigitChar(d: nat): (c: char)
    requires d < 10
    ensures IsDigit(c) && DigitValue(c) == d
  {
    (('0' as int) + d) as char
  }

  /** The decimal digits of `n`, most significant first, without leading zeros. */
  function Digits(n: nat): (s: string)
    ensures |s| > 0 && AllDigits(s)
    ensures n > 0 ==> s[0] != '0'
    decreases n
  {
    if n < 10 then [DigitChar(n)] else Digits(n / 10) + [DigitChar(n % 10)]
  }

  /** The number a run of decimal digits denotes, read left to right. */
  function DigitsValue(s: string): nat
    requires AllDigits(s)
  {
    if |s| == 0 then 0 else DigitsValue(s[..|s| - 1]) * 10 + DigitValue(s[|s| - 1])
  }

  /**
   `String.valueOf(int)`: a minus sign exactly for negative numbers, then the
   digits of the magnitude, which read back as that magnitude.
   */
  function Decimal(n: int): (s: string)
    ensures |s| > 0 && (s[0] == '-' <==> n < 0)
    ensures n < 0 ==> AllDigits(s[1..]) && DigitsValue(s[1..]) == -n
    ensures n >= 0 ==> AllDigits(s) && DigitsValue(s) == n
  {
    DigitsValueOfDigits(if n < 0 then -n else n);
    if n < 0 then
      assert ("-" + Digits(-n))[1..] == Digits(-n);
      "-" + Digits(-n)
    else Digits(n)
  }

  /**
   `Integer.parseInt(s)`, also what `Integer.valueOf(s)` parses: one optional
   sign, at least one decimal digit, and a value inside the `int` range;
   anything else throws NumberFormatException, written here as None.
   */
  function ParseInt(s: string): (r: Option<Int32>)
    ensures r.Some? ==> 0 < |s|
    ensures r.Some? && r.value < 0 ==> s[0] == '-'
    ensures r.Some? ==> AllDigits(s[1..]) && (s[0] in "+-" || IsDigit(s[0]))
    ensures 0 < |s| && AllDigits(s) && DigitsValue(s) < 0x8000_0000 ==> r == Some(DigitsValue(s))
    ensures 1 < |s| && s[0] == '-' && AllDigits(s[1..]) && DigitsValue(s[1..]) <= 0x8000_0000 ==> r == Some(0 - DigitsValue(s[1..]))
  {
    if |s| == 0 then None
    else
      var body := if s[0] == '-' || s[0] == '+' then s[1..] else s;
      if |body| == 0 || !AllDigits(body) then None
      else
        var v: int := if s[0] == '-' then 0 - DigitsValue(body) else DigitsValue(body);
        if -0x8000_0000 <= v < 0x8000_0000 then Some(v) else None
  }

  lemma {:induction false} DigitsValueOfDigits(n: nat)
    ensures DigitsValue(Digits(n)) == n
    decreases n
  {
    if n >= 10 {
      DigitsValueOfDigits(n / 10);
      var s := Digits(n);
      assert s[..|s| - 1] == Digits(n / 10);
    }
  }

  /** What the client writes with `String.valueOf(id)` the reader gets back with `parseInt`. */
  lemma ParseDecimal(n: Int32)
    ensures ParseInt(Decimal(n)) == Some(n)
  {
    var a: nat := if n < 0 then -(n as int) else n;
    DigitsValueOfDigits(a);
    if n < 0 {
      assert Decimal(n)[1..] == Digits(a);
    } else {
      assert Digits(n)[0] != '-' && Digits(n)[0] != '+';
    }
  }

  /** Characters `String.trim()` removes: every code point up to U+0020. */
  predicate IsTrimmable(c: char) {
    c <= ' '
  }

  /** First index at or after `i` that `trim()` keeps, or `|s|`. */
  function SkipLeading(s: string, i: nat): (k: nat)
    requires i <= |s|
    ensures i <= k <= |s|
    ensures forall x :: i <= x < k ==> IsTrimmable(s[x])
    ensures k == |s| || !IsTrimmable(s[k])
    decreases |s| - i
  {
    if i < |s| && IsTrimmable(s[i]) then SkipLeading(s, i + 1) else i
  }

  /** End (exclusive) of `s[lo..hi]` once trailing trimmable characters are dropped. */
  function SkipTrailing(s: string, lo: nat, hi: nat): (k: nat)
    requires lo <= hi <= |s|
    ensures lo <= k <= hi
    ensures forall x :: k <= x < hi ==> IsTrimmable(s[x])
    ensures k == lo || !IsTrimmable(s[k - 1])
    decreases hi - lo
  {
    if lo < hi && IsTrimmable(s[hi - 1]) then SkipTrailing(s, lo, hi - 1) else hi
  }

  /** `String.trim()`: the infix of `s` left once both ends are stripped of characters up to U+0020. */
  function Trim(s: string): (t: string)
    ensures |t| <= |s|
    ensures t == [] || (!IsTrimmable(t[0]) && !IsTrimmable(t[|t| - 1]))
    ensures t == [] <==> forall x :: 0 <= x < |s| ==> IsTrimmable(s[x])
    ensures exists lo, hi :: 0 <= lo <= hi <= |s| && t == s[lo..hi]
                             && (forall x :: 0 <= x < lo ==> IsTrimmable(s[x]))
                             && (forall x :: hi <= x < |s| ==> IsTrimmable(s[x]))
  {
    var lo := SkipLeading(s, 0);
    var hi := SkipTrailing(s, lo, |s|);
    assert hi > lo ==> s[lo..hi][0] == s[lo];
    s[lo..hi]
  }

  /**
   `s.split(" ")[0]`. Java's split keeps a leading empty piece but drops
   trailing empty ones, so the first piece is the text before the first
   space, except that a non-empty string of spaces only splits into no
   pieces at all and indexing it throws (None).
   */
  function FirstWord(s: string): (r: Option<string>)
    ensures r.None? <==> |s| > 0 && forall x :: 0 <= x < |s| ==> s[x] == ' '
    ensures r.Some? ==> |r.value| <= |s| && r.value == s[..|r.value|]
    ensures r.Some? ==> ' ' !in r.value && (|r.value| == |s| || s[|r.value|] == ' ')
  {
    if |s| > 0 && forall x :: 0 <= x < |s| ==> s[x] == ' ' then None
    else Some(UpToSpace(s))
  }

  /** The longest prefix of `s` without a space. */
  function UpToSpace(s: string): (p: string)
    ensures |p| <= |s| && p == s[..|p|] && ' ' !in p
    ensures |p| == |s| || s[|p|] == ' '
  {
    if |s| == 0 || s[0] == ' ' then "" else [s[0]] + UpToSpace(s[1..])
  }

  /** A string without spaces is its own first word. */
  lemma FirstWordOfWord(s: string)
    requires ' ' !in s
    ensures FirstWord(s) == Some(s)
  {
    UpToSpaceWhole(s);
    if |s| > 0 {
      assert s[0] in s;
    }
  }

  lemma {:induction false} UpToSpaceWhole(s: string)
    requires ' ' !in s
    ensures UpToSpace(s) == s
  {
    if |s| > 0 {
      assert s[0] in s;
      assert forall k :: 0 <= k < |s[1..]| ==> s[1..][k] in s;
      UpToSpaceWhole(s[1..]);
      assert s == [s[0]] + s[1..];
    }
  }
}

=== FILE: mainchatview.dfy ===
/**
 The state behind the main chat window (`MainChatView`), without Swing: the
 sidebar directory (a list of rows plus a name-to-id map), the selected row,
 the transcript of the open conversation, the selected transcript line, the
 search matches and the input text. Each operation is a function of that
 state; one that throws in Java yields None.
 */
module MainChatView {
  import opened Optional
  import opened JavaLang
  import opened Conversations
  import opened Protocol
  import ClientModel

  const OfflineStatus: string := "offline"
  const OnlineStatus: string := "online"
  const GroupStatus: string := "GROUP"

  /** A sidebar row (`ListEntry`): a person or group name, a status, and whether the new-message icon is set. */
  datatype Entry = Entry(name: string, status: string, flagged: bool)

  /** `ListEntry.equals`: two rows are equal when their names are, whatever their status or icon. */
  predicate SameEntry(a: Entry, b: Entry) {
    a.name == b.name
  }

  /**
   `ListEntry.equals` is an equivalence, as `Object.equals` demands, and it
   ignores the status and the icon: a row equals itself whatever its status
   or icon become.
   */
  lemma SameEntryEquivalence(a: Entry, b: Entry, c: Entry, status: string, flagged: bool)
    ensures SameEntry(a, a)
    ensures SameEntry(a, b) ==> SameEntry(b, a)
    ensures SameEntry(a, b) && SameEntry(b, c) ==> SameEntry(a, c)
    ensures SameEntry(a, a.(status := status, flagged := flagged))
  {
  }

  datatype View = View(
    entries: seq<Entry>,          // the sidebar rows, in display order
    ids: map<string, Int32>,      // row name to conversation id
    selected: Option<nat>,        // the selected sidebar row
    transcript: seq<string>,      // the displayed message lines
    picked: Option<nat>,          // the selected transcript line
    matches: Option<seq<nat>>,    // transcript lines the last search matched; null when stale
    input: string)               // the text being typed

  /**
   A view operation's result: the new view and, in order, the conversation
   ids whose history it requested through the client (`getHistory`, the only
   request a view operation writes).
   */
  datatype Change = Change(view: View, history: seq<Int32>)

  /** `getSelectedIndex()`: -1 when nothing is selected. */
  function SelectedIndex(v: View): int {
    if v.selected.None? then -1 else v.selected.value
  }

  /**
   `(getSelectedIndex() + 1) % size`: the row after the selected one, or
   row 0 after the last row and when nothing is selected.
   */
  function NextRow(v: View): (i: nat)
    requires |v.entries| > 0
    ensures i < |v.entries|
    ensures SelectedIndex(v) + 1 < |v.entries| ==> i == SelectedIndex(v) + 1
    ensures SelectedIndex(v) + 1 == |v.entries| ==> i == 0
  {
    (SelectedIndex(v) + 1) % |v.entries|
  }

  /**
   `indexOf(new ListEntry(name, null, null))`: the first row equal to the
   probe under `ListEntry.equals`, or -1.
   */
  function IndexOfName(entries: seq<Entry>, name: string): (i: int)
    ensures -1 <= i < |entries|
    ensures i >= 0 ==> SameEntry(entries[i], Entry(name, "", false))
    ensures i >= 0 ==> forall k :: 0 <= k < i ==> !SameEntry(entries[k], Entry(name, "", false))
    ensures i == -1 <==> forall k :: 0 <= k < |entries| ==> entries[k].name != name
  {
    if |entries| == 0 then -1
    else if SameEntry(entries[0], Entry(name, "", false)) then 0
    else
      var j := IndexOfName(entries[1..], name);
      if j == -1 then -1 else j + 1
  }

  /** Rows `a` and `b` show the same names and statuses in the same order (icons aside). */
  predicate SameRows(a: seq<Entry>, b: seq<Entry>) {
    |a| == |b| && forall k :: 0 <= k < |a| ==> a[k].name == b[k].name && a[k].status == b[k].status
  }

  /**
   `get(indexOf(new ListEntry(who, null, null))).setStatus(status)`: the first
   row named `who` takes the status and nothing else changes; with no such
   row `get(-1)` throws.
   */
  function SetStatus(v: View, who: string, status: string): (r: Option<View>)
    ensures r.Some? <==> exists k :: 0 <= k < |v.entries| && v.entries[k].name == who
    ensures r.Some? ==>
              var i := IndexOfName(v.entries, who);
              && r.value == v.(entries := r.value.entries)
              && |r.value.entries| == |v.entries|
              && r.value.entries[i] == v.entries[i].(status := status)
              && forall k :: 0 <= k < |v.entries| && k != i ==> r.value.entries[k] == v.entries[k]
  {
    var i := IndexOfName(v.entries, who);
    if i < 0 then None
    else Some(v.(entries := v.entries[i := v.entries[i].(status := status)]))
  }

  /** `updateOnline(login)`: the first row named `login` becomes "online"; nothing else changes. */
  function UpdateOnline(v: View, who: string): (r: Option<View>)
    ensures r.Some? <==> exists k :: 0 <= k < |v.entries| && v.entries[k].name == who
    ensures r.Some? ==>
              var i := IndexOfName(v.entries, who);
              && r.value == v.(entries := r.value.entries)
              && |r.value.entries| == |v.entries|
              && r.value.entries[i] == v.entries[i].(status := OnlineStatus)
              && forall k :: 0 <= k < |v.entries| && k != i ==> r.value.entries[k] == v.entries[k]
  {
    SetStatus(v, who, OnlineStatus)
  }

  /** `updateOffline(login)`: the first row named `login` becomes "offline"; nothing else changes. */
  function UpdateOffline(v: View, who: string): (r: Option<View>)
    ensures r.Some? <==> exists k :: 0 <= k < |v.entries| && v.entries[k].name == who
    ensures r.Some? ==>
              var i := IndexOfName(v.entries, who);
              && r.value == v.(entries := r.value.entries)
              && |r.value.entries| == |v.entries|
              && r.value.entries[i] == v.entries[i].(status := OfflineStatus)
              && forall k :: 0 <= k < |v.entries| && k != i ==> r.value.entries[k] == v.entries[k]
  {
    SetStatus(v, who, OfflineStatus)
  }

  /** Going online and then offline again restores a row that was offline. */
  lemma OnlineThenOfflineRestores(v: View, who: string)
    requires exists k :: 0 <= k < |v.entries| && v.entries[k].name == who
    requires v.entries[IndexOfName(v.entries, who)].status == OfflineStatus
    ensures UpdateOnline(v, who).Some?
    ensures UpdateOffline(UpdateOnline(v, who).value, who) == Some(v)
  {
    var i := IndexOfName(v.entries, who);
    var w := UpdateOnline(v, who).value;
    assert IndexOfName(w.entries, who) == i by {
      assert forall k :: 0 <= k <= i ==> w.entries[k].name == v.entries[k].name;
    }
    assert w.entries[i := w.entries[i].(status := OfflineStatus)] == v.entries;
  }

  /** `updateRegister(id, login)`: one "offline" row for `login` at the end, and `login` bound to `id`. */
  function UpdateRegister(v: View, id: Int32, name: string): (r: View)
    ensures r.entries == v.entries + [Entry(name, OfflineStatus, false)]
    ensures r.ids.Keys == v.ids.Keys + {name} && r.ids[name] == id
    ensures forall n :: n in v.ids && n != name ==> r.ids[n] == v.ids[n]
    ensures r == v.(entries := r.entries, ids := r.ids)
  {
    v.(entries := v.entries + [Entry(name, OfflineStatus, false)], ids := v.ids[name := id])
  }

  /** `updateGroups(name, id)`: one "GROUP" row for `name` at the end, and `name` bound to `id`. */
  function UpdateGroups(v: View, name: string, id: Int32): (r: View)
    ensures r.entries == v.entries + [Entry(name, GroupStatus, false)]
    ensures r.ids.Keys == v.ids.Keys + {name} && r.ids[name] == id
    ensures forall n :: n in v.ids && n != name ==> r.ids[n] == v.ids[n]
    ensures r == v.(entries := r.entries, ids := r.ids)
  {
    v.(entries := v.entries + [Entry(name, GroupStatus, false)], ids := v.ids[name := id])
  }

  /** A row appended for a name not yet listed is the one `indexOf` finds. */
  lemma AppendedRowIsFound(v: View, id: Int32, name: string)
    requires forall k :: 0 <= k < |v.entries| ==> v.entries[k].name != name
    ensures IndexOfName(UpdateRegister(v, id, name).entries, name) == |v.entries|
    ensures IndexOfName(UpdateGroups(v, name, id).entries, name) == |v.entries|
  {
    IndexOfNameAppend(v.entries, Entry(name, OfflineStatus, false), name);
    IndexOfNameAppend(v.entries, Entry(name, GroupStatus, false), name);
  }

  lemma {:induction false} IndexOfNameAppend(entries: seq<Entry>, e: Entry, name: string)
    requires forall k :: 0 <= k < |entries| ==> entries[k].name != name
    requires e.name == name
    ensures IndexOfName(entries + [e], name) == |entries|
    decreases |entries|
  {
    if |entries| > 0 {
      assert (entries + [e])[1..] == entries[1..] + [e];
      IndexOfNameAppend(entries[1..], e, name);
    }
  }

  /**
   What running code that may throw leaves behind: it finished, or it threw
   after the changes and requests in `partial`. Swing keeps those changes;
   the exception reaches whoever changed the selection.
   */
  datatype Attempt = Done(change: Change) | Threw(partial: Change)

  /** The view and requests an attempt leaves, whether or not it threw. */
  function After(a: Attempt): Change {
    if a.Done? then a.change else a.partial
  }

  /**
   The selection listener (`SharedListSelectionHandler.valueChanged`) for a
   selected row: clears the row's new-message icon, then looks the row's
   name up; an unbound name throws when the missing id is unboxed. Otherwise
   it requests the history of the row's conversation and forgets the search
   matches.
   */
  function SelectionChanged(v: View): (r: Attempt)
    requires v.selected.Some? && v.selected.value < |v.entries|
    ensures var i := v.selected.value;
            var u := After(r).view;
            && (r.Done? <==> v.entries[i].name in v.ids)
            && u == v.(entries := u.entries, matches := u.matches)
            && |u.entries| == |v.entries| && u.entries[i] == v.entries[i].(flagged := false)
            && (forall k :: 0 <= k < |v.entries| && k != i ==> u.entries[k] == v.entries[k])
            && (r.Done? ==> u.matches == None && r.change.history == [v.ids[v.entries[i].name]])
            && (r.Threw? ==> u.matches == v.matches && r.partial.history == [])
  {
    var i := v.selected.value;
    var cleared := v.(entries := v.entries[i := v.entries[i].(flagged := false)]);
    if v.entries[i].name !in v.ids then Threw(Change(cleared, []))
    else Done(Change(cleared.(matches := None), [v.ids[v.entries[i].name]]))
  }

  /**
   `setSelectedIndex(i)`: an index past the end is ignored, selecting the row
   already selected fires no event, and any other row is selected and then
   handled by the selection listener. The selection stays on the new row
   even when the listener throws.
   */
  function SetSelectedIndex(v: View, i: nat): (r: Attempt)
    ensures i >= |v.entries| || v.selected == Some(i) ==> r == Done(Change(v, []))
    ensures i < |v.entries| && v.selected != Some(i) ==>
              var u := After(r).view;
              && (r.Done? <==> v.entries[i].name in v.ids)
              && u == v.(selected := Some(i), matches := u.matches, entries := u.entries)
              && SameRows(u.entries, v.entries)
              && !u.entries[i].flagged
              && (forall k :: 0 <= k < |v.entries| && k != i ==> u.entries[k] == v.entries[k])
              && (r.Done? ==> u.matches == None && r.change.history == [v.ids[v.entries[i].name]])
              && (r.Threw? ==> u.matches == v.matches && r.partial.history == [])
  {
    if i >= |v.entries| || v.selected == Some(i) then Done(Change(v, []))
    else SelectionChanged(v.(selected := Some(i)))
  }

  /** Drops the first row named `name`, if any. */
  function RemoveRow(entries: seq<Entry>, name: string): (r: seq<Entry>)
    ensures IndexOfName(entries, name) < 0 ==> r == entries
    ensures IndexOfName(entries, name) >= 0 ==>
              var i := IndexOfName(entries, name);
              r == entries[..i] + entries[i + 1..]
  {
    var i := IndexOfName(entries, name);
    if i < 0 then entries else entries[..i] + entries[i + 1..]
  }

  /**
   The selection model's response to the removal of row `i`, in a view `w`
   whose rows no longer hold it but whose selection is still the index from
   before. A selection above the removed row stays and fires nothing. One
   below it moves up a row and the listener handles it. A selection on the
   removed row is cleared; the listener, finding nothing selected, selects
   row 0, which runs the listener for row 0 nested, and then goes on to
   handle row 0 itself, so row 0's history is requested twice. With no rows
   left that second part throws.
   */
  function Reselect(w: View, i: nat): (r: Attempt)
    requires w.selected.Some? && w.selected.value <= |w.entries| && i <= |w.entries|
    ensures var sel := w.selected.value;
            var u := After(r).view;
            && u.ids == w.ids && u.transcript == w.transcript && u.picked == w.picked && u.input == w.input
            && SameRows(u.entries, w.entries)
            && (sel < i ==> r == Done(Change(w, [])))
            && (sel > i ==> u.selected == Some(sel - 1))
            && (sel == i && |w.entries| > 0 ==> u.selected == Some(0))
            && (r.Threw? <==> sel >= i && (|w.entries| == 0 || w.entries[if sel > i then sel - 1 else 0].name !in w.ids))
            && (r.Done? ==> u.selected.Some? && u.selected.value < |u.entries|)
            && (r.Threw? ==> r.partial.history == [])
            && (sel > i && r.Done? ==>
                  && w.entries[sel - 1].name in w.ids
                  && r.change.history == [w.ids[w.entries[sel - 1].name]])
            && (sel == i && r.Done? ==>
                  && |w.entries| > 0 && w.entries[0].name in w.ids
                  && r.change.history == [w.ids[w.entries[0].name], w.ids[w.entries[0].name]])
  {
    var sel := w.selected.value;
    if sel < i then Done(Change(w, []))
    else if sel > i then SelectionChanged(w.(selected := Some(sel - 1)))
    else if |w.entries| == 0 then Threw(Change(w.(selected := None), []))
    else match SelectionChanged(w.(selected := Some(0)))
      case Threw(p) => Threw(p)
      case Done(first) =>
        var second := After(SelectionChanged(first.view));
        Done(Change(second.view, first.history + second.history))
  }

  /**
   The rest of `deleteGroup` once the selection has moved to row `next` of
   `w`: the removal, the selection model's response, and the unbinding.
   */
  function RemoveFromSelected(w: View, name: string): (r: Attempt)
    requires w.selected.Some? && w.selected.value < |w.entries|
    ensures IndexOfName(w.entries, name) < 0 ==> r == Done(Change(w.(ids := w.ids - {name}), []))
    ensures r.Done? ==> name !in r.change.view.ids && |r.change.view.entries| == |RemoveRow(w.entries, name)|
    ensures r.Threw? ==> r.partial.view.ids == w.ids && r.partial.history == []
  {
    var i := IndexOfName(w.entries, name);
    if i < 0 then Done(Change(w.(ids := w.ids - {name}), []))
    else
      match Reselect(w.(entries := RemoveRow(w.entries, name)), i)
      case Threw(p) => Threw(p)
      case Done(ch) => Done(Change(ch.view.(ids := ch.view.ids - {name}), ch.history))
  }

  /** When the rest of `deleteGroup` throws: only after removing a row at or above the selection. */
  lemma RemoveFromSelectedThrows(w: View, name: string)
    requires w.selected.Some? && w.selected.value < |w.entries|
    ensures var next := w.selected.value;
            var i := IndexOfName(w.entries, name);
            RemoveFromSelected(w, name).Threw? <==>
              && 0 <= i <= next
              && (|w.entries| == 1 || RemoveRow(w.entries, name)[if next > i then next - 1 else 0].name !in w.ids)
  {
  }

  /**
   When the rest of `deleteGroup` finishes, the first row named `name` and
   its binding are gone; the transcript, picked line, input and the other
   rows' names and statuses stay, and a row is selected.
   */
  lemma RemoveFromSelectedFrame(w: View, name: string)
    requires w.selected.Some? && w.selected.value < |w.entries|
    ensures var r := RemoveFromSelected(w, name);
            r.Done? ==>
              var u := r.change.view;
              && u.ids == w.ids - {name}
              && u.transcript == w.transcript && u.picked == w.picked && u.input == w.input
              && SameRows(u.entries, RemoveRow(w.entries, name))
              && u.selected.Some? && u.selected.value < |u.entries|
  {
    var i := IndexOfName(w.entries, name);
    if i >= 0 {
      var shown := w.(entries := RemoveRow(w.entries, name));
      var rs := Reselect(shown, i);
      if rs.Done? {
        assert RemoveFromSelected(w, name) == Done(Change(rs.change.view.(ids := rs.change.view.ids - {name}), rs.change.history));
      }
    }
  }

  /** Where the rest of `deleteGroup` leaves the selection. */
  lemma RemoveFromSelectedSelection(w: View, name: string)
    requires w.selected.Some? && w.selected.value < |w.entries|
    ensures var r := RemoveFromSelected(w, name);
            var next := w.selected.value;
            var i := IndexOfName(w.entries, name);
            r.Done? ==>
              var u := r.change.view;
              && u.selected.Some? && u.selected.value < |u.entries|
              && (i != next ==> u.entries[u.selected.value].name == w.entries[next].name)
              && (i == next ==> u.selected == Some(0))
  {
    var next := w.selected.value;
    var i := IndexOfName(w.entries, name);
    if i >= 0 {
      var shown := w.(entries := RemoveRow(w.entries, name));
      var rs := Reselect(shown, i);
      if rs.Done? {
        assert RemoveFromSelected(w, name) == Done(Change(rs.change.view.(ids := rs.change.view.ids - {name}), rs.change.history));
        if next < i {
          assert shown.entries[next] == w.entries[next];
        } else if next > i {
          assert shown.entries[next - 1] == w.entries[next];
        }
      }
    }
  }

  /**
   Which history the rest of `deleteGroup` requests: nothing for a row
   removed below the selection or not found, one request for the selected
   row after a row above it goes, and two for the new row 0 when the
   selected row itself goes. A removal that throws has requested nothing.
   */
  lemma RemoveFromSelectedRequests(w: View, name: string)
    requires w.selected.Some? && w.selected.value < |w.entries|
    ensures var r := RemoveFromSelected(w, name);
            var next := w.selected.value;
            var i := IndexOfName(w.entries, name);
            && (r.Threw? ==> r.partial.history == [])
            && (r.Done? && (i < 0 || i > next) ==> r.change.history == [])
            && (r.Done? && 0 <= i < next ==>
                  && w.entries[next].name in w.ids
                  && r.change.history == [w.ids[w.entries[next].name]])
            && (r.Done? && i == next ==>
                  && |RemoveRow(w.entries, name)| > 0 && RemoveRow(w.entries, name)[0].name in w.ids
                  && r.change.history == [w.ids[RemoveRow(w.entries, name)[0].name], w.ids[RemoveRow(w.entries, name)[0].name]])
  {
    var next := w.selected.value;
    var i := IndexOfName(w.entries, name);
    if i > next {
      RemovedBelowSelection(w, name);
    } else if 0 <= i < next {
      RemovedAboveSelection(w, name);
    } else if i == next {
      RemovedSelectedRow(w, name);
    }
  }

  /** Removing a row below the selected one requests nothing. */
  lemma RemovedBelowSelection(w: View, name: string)
    requires w.selected.Some? && w.selected.value < IndexOfName(w.entries, name)
    ensures RemoveFromSelected(w, name).Done? && RemoveFromSelected(w, name).change.history == []
  {
  }

  /** Removing a row above the selected one requests the history of the row that moved up, once. */
  lemma RemovedAboveSelection(w: View, name: string)
    requires w.selected.Some? && w.selected.value < |w.entries|
    requires 0 <= IndexOfName(w.entries, name) < w.selected.value
    ensures var r := RemoveFromSelected(w, name);
            var next := w.selected.value;
            && (r.Threw? ==> r.partial.history == [])
            && (r.Done? ==>
                  && w.entries[next].name in w.ids
                  && r.change.history == [w.ids[w.entries[next].name]])
  {
    var next := w.selected.value;
    var i := IndexOfName(w.entries, name);
    var shown := w.(entries := RemoveRow(w.entries, name));
    var rs := Reselect(shown, i);
    if rs.Done? {
      assert RemoveFromSelected(w, name).change.history == rs.change.history;
      assert shown.entries[next - 1].name == w.entries[next].name by {
        DropAt(w.entries, i);
      }
    }
  }

  /** Removing the selected row requests the history of the new row 0 twice: once nested, once after. */
  lemma RemovedSelectedRow(w: View, name: string)
    requires w.selected.Some? && w.selected.value < |w.entries|
    requires IndexOfName(w.entries, name) == w.selected.value
    ensures var r := RemoveFromSelected(w, name);
            var rest := RemoveRow(w.entries, name);
            && (r.Threw? ==> r.partial.history == [])
            && (r.Done? ==>
                  && |rest| > 0 && rest[0].name in w.ids
                  && r.change.history == [w.ids[rest[0].name], w.ids[rest[0].name]])
  {
    var i := IndexOfName(w.entries, name);
    var shown := w.(entries := RemoveRow(w.entries, name));
    var rs := Reselect(shown, i);
    if rs.Done? {
      assert RemoveFromSelected(w, name).change.history == rs.change.history;
    }
  }

  /**
   `deleteGroup(name)`: first moves the selection to (index + 1) mod the
   number of rows (an empty list divides by zero), then removes the first
   row named `name`, with the selection model's response to that removal,
   and last drops the binding of `name`. A listener that throws stops it
   there, before the binding is dropped.
   */
  function DeleteGroup(v: View, name: string): (r: Attempt)
    ensures |v.entries| == 0 ==> r == Threw(Change(v, []))
  {
    if |v.entries| == 0 then Threw(Change(v, []))
    else
      var next := NextRow(v);
      match SetSelectedIndex(v, next)
      case Threw(p) => Threw(p)
      case Done(ch) =>
        match RemoveFromSelected(ch.view, name)
        case Threw(p) => Threw(Change(p.view, ch.history + p.history))
        case Done(ch2) => Done(Change(ch2.view, ch.history + ch2.history))
  }

  /** `deleteGroup` is the selection move followed by the rest, with the requests of both. */
  lemma DeleteGroupUnfold(v: View, name: string)
    requires |v.entries| > 0
    ensures var next := NextRow(v);
            var sel := SetSelectedIndex(v, next);
            && (sel.Threw? ==> DeleteGroup(v, name) == sel)
            && (sel.Done? ==>
                  && sel.change.view.selected == Some(next)
                  && var rest := RemoveFromSelected(sel.change.view, name);
                     DeleteGroup(v, name)
                     == if rest.Threw? then Threw(Change(rest.partial.view, sel.change.history + rest.partial.history))
                        else Done(Change(rest.change.view, sel.change.history + rest.change.history)))
  {
  }

  /** `deleteGroup` throws when it removes the only row: nothing is left to select. */
  lemma DeleteGroupLastRowThrows(v: View, name: string)
    requires |v.entries| == 1 && IndexOfName(v.entries, name) == 0
    ensures DeleteGroup(v, name).Threw?
  {
    DeleteGroupUnfold(v, name);
    assert NextRow(v) == 0;
    var sel := SetSelectedIndex(v, 0);
    if sel.Done? {
      var w := sel.change.view;
      assert w.selected == Some(0) && |w.entries| == 1;
      SameRowsSameIndex(w.entries, v.entries, name);
      RemoveFromSelectedThrows(w, name);
      assert RemoveFromSelected(w, name).Threw?;
    }
  }

  /** `deleteGroup` finishes whenever every row is bound, unless it removes the only row. */
  lemma DeleteGroupFinishes(v: View, name: string)
    requires |v.entries| > 0
    requires forall k :: 0 <= k < |v.entries| ==> v.entries[k].name in v.ids
    requires !(|v.entries| == 1 && IndexOfName(v.entries, name) == 0)
    ensures DeleteGroup(v, name).Done?
  {
    DeleteGroupUnfold(v, name);
    var next := NextRow(v);
    var sel := SetSelectedIndex(v, next);
    assert sel.Done?;
    var w := sel.change.view;
    SameRowsSameIndex(w.entries, v.entries, name);
    assert w.ids == v.ids;
    SameRowsBound(w.entries, v.entries, v.ids);
    RemovedRowsBound(w.entries, w.ids, name);
    RemoveFromSelectedThrows(w, name);
  }

  /**
   What `deleteGroup` leaves when it finishes: exactly the first row named
   `name` and the binding of `name` are gone, the transcript, picked line,
   input and the other rows' names and statuses stay, and a row is selected.
   */
  lemma DeleteGroupFrame(v: View, name: string)
    requires DeleteGroup(v, name).Done?
    ensures |v.entries| > 0
    ensures var u := DeleteGroup(v, name).change.view;
            && u.ids == v.ids - {name}
            && u.transcript == v.transcript && u.picked == v.picked && u.input == v.input
            && SameRows(u.entries, RemoveRow(v.entries, name))
            && u.selected.Some? && u.selected.value < |u.entries|
  {
    DeleteGroupUnfold(v, name);
    var next := NextRow(v);
    var sel := SetSelectedIndex(v, next);
    var w := sel.change.view;
    assert w.ids == v.ids && w.transcript == v.transcript && w.picked == v.picked && w.input == v.input;
    SameRowsRemove(w.entries, v.entries, name);
    RemoveFromSelectedFrame(w, name);
  }

  /**
   Where `deleteGroup` leaves the selection: on the row it moved to, or on
   row 0 when that row was the one removed.
   */
  lemma DeleteGroupSelection(v: View, name: string)
    requires DeleteGroup(v, name).Done?
    ensures |v.entries| > 0
    ensures var u := DeleteGroup(v, name).change.view;
            var next := NextRow(v);
            var i := IndexOfName(v.entries, name);
            && u.selected.Some? && u.selected.value < |u.entries|
            && (i != next ==> u.entries[u.selected.value].name == v.entries[next].name)
            && (i == next ==> u.selected == Some(0))
  {
    DeleteGroupUnfold(v, name);
    var next := NextRow(v);
    var sel := SetSelectedIndex(v, next);
    var w := sel.change.view;
    assert w.entries[next].name == v.entries[next].name;
    SameRowsSameIndex(w.entries, v.entries, name);
    RemoveFromSelectedSelection(w, name);
  }

  /**
   The history requests of a finished `deleteGroup`, in order: one for the
   row it moved to (none if that row was already selected), then one more
   for that row when a row above it was removed, or two for the new row 0
   when the row moved to was the one removed.
   */
  lemma DeleteGroupRequests(v: View, name: string)
    requires DeleteGroup(v, name).Done?
    ensures |v.entries| > 0
    ensures v.selected != Some(NextRow(v)) ==> v.entries[NextRow(v)].name in v.ids
    ensures var i := IndexOfName(v.entries, name);
            i < 0 || i > NextRow(v) ==> DeleteGroup(v, name).change.history == MoveRequest(v)
    ensures var row := v.entries[NextRow(v)].name;
            0 <= IndexOfName(v.entries, name) < NextRow(v) ==>
              row in v.ids && DeleteGroup(v, name).change.history == MoveRequest(v) + [v.ids[row]]
    ensures var rest := RemoveRow(v.entries, name);
            IndexOfName(v.entries, name) == NextRow(v) ==>
              && |rest| > 0 && rest[0].name in v.ids
              && DeleteGroup(v, name).change.history == MoveRequest(v) + [v.ids[rest[0].name], v.ids[rest[0].name]]
  {
    DeleteGroupDone(v, name);
    var next := NextRow(v);
    var i := IndexOfName(v.entries, name);
    var w := SetSelectedIndex(v, next).change.view;
    var r := RemoveFromSelected(w, name);
    assert DeleteGroup(v, name).change.history == MoveRequest(v) + r.change.history;
    MovedSelection(v, next, name);
    RemoveFromSelectedRequests(w, name);
    if i == next {
      SameRowsRemove(w.entries, v.entries, name);
      assert RemoveRow(w.entries, name)[0].name == RemoveRow(v.entries, name)[0].name;
    }
  }

  /** The request the first step of `deleteGroup` sends when it moves to a bound row: none when that row is already selected. */
  function MoveRequest(v: View): seq<Int32>
    requires |v.entries| > 0
  {
    var row := v.entries[NextRow(v)].name;
    if v.selected == Some(NextRow(v)) || row !in v.ids then [] else [v.ids[row]]
  }

  /** A finished `deleteGroup` is a finished selection move followed by a finished rest. */
  lemma DeleteGroupDone(v: View, name: string)
    requires DeleteGroup(v, name).Done?
    ensures |v.entries| > 0
    ensures var sel := SetSelectedIndex(v, NextRow(v));
            var row := v.entries[NextRow(v)].name;
            && sel.Done?
            && var rest := RemoveFromSelected(sel.change.view, name);
               && rest.Done?
               && DeleteGroup(v, name).change == Change(rest.change.view, sel.change.history + rest.change.history)
               && (v.selected != Some(NextRow(v)) ==> row in v.ids)
               && sel.change.history == MoveRequest(v)
  {
    DeleteGroupUnfold(v, name);
  }

  /** Moving the selection to row `next` keeps the rows, the bindings and where `name` is found. */
  lemma MovedSelection(v: View, next: nat, name: string)
    requires next < |v.entries| && SetSelectedIndex(v, next).Done?
    ensures var w := SetSelectedIndex(v, next).change.view;
            && w.selected == Some(next) && |w.entries| == |v.entries|
            && w.ids == v.ids && w.entries[next].name == v.entries[next].name
            && IndexOfName(w.entries, name) == IndexOfName(v.entries, name)
  {
    SameRowsSameIndex(SetSelectedIndex(v, next).change.view.entries, v.entries, name);
  }

  /** Rows that look like rows whose names are all bound have their names bound too. */
  lemma SameRowsBound(a: seq<Entry>, b: seq<Entry>, ids: map<string, Int32>)
    requires SameRows(a, b)
    requires forall k :: 0 <= k < |b| ==> b[k].name in ids
    ensures forall k :: 0 <= k < |a| ==> a[k].name in ids
  {
  }

  /** Rows whose names are all bound stay bound after a removal. */
  lemma RemovedRowsBound(entries: seq<Entry>, ids: map<string, Int32>, name: string)
    ensures (forall k :: 0 <= k < |entries| ==> entries[k].name in ids) ==>
              forall k :: 0 <= k < |RemoveRow(entries, name)| ==> RemoveRow(entries, name)[k].name in ids
  {
  }

  /** Removing the same name from two row lists that look alike leaves two lists that look alike. */
  lemma SameRowsRemove(a: seq<Entry>, b: seq<Entry>, name: string)
    requires SameRows(a, b)
    ensures SameRows(RemoveRow(a, name), RemoveRow(b, name))
    ensures IndexOfName(a, name) == IndexOfName(b, name)
  {
    SameRowsSameIndex(a, b, name);
    var i := IndexOfName(a, name);
    if i >= 0 {
      var ra, rb := RemoveRow(a, name), RemoveRow(b, name);
      DropAt(a, i);
      DropAt(b, i);
      forall k | 0 <= k < |ra|
        ensures ra[k].name == rb[k].name && ra[k].status == rb[k].status
      {
        if k < i {
          assert ra[k] == a[k] && rb[k] == b[k];
        } else {
          assert ra[k] == a[k + 1] && rb[k] == b[k + 1];
        }
      }
    }
  }

  /** The rows after dropping row `i`: those before it, then those after it moved up by one. */
  lemma DropAt(a: seq<Entry>, i: nat)
    requires i < |a|
    ensures |a[..i] + a[i + 1..]| == |a| - 1
    ensures forall k :: 0 <= k < i ==> (a[..i] + a[i + 1..])[k] == a[k]
    ensures forall k :: i < k < |a| ==> (a[..i] + a[i + 1..])[k - 1] == a[k]
  {
  }

  lemma {:induction false} SameRowsSameIndex(a: seq<Entry>, b: seq<Entry>, name: string)
    requires SameRows(a, b)
    ensures IndexOfName(a, name) == IndexOfName(b, name)
    decreases |a|
  {
    if |a| > 0 {
      SameRowsSameIndex(a[1..], b[1..], name);
    }
  }

  /** Deleting a group that `updateGroups` just added, under a fresh name, restores the rows and the bindings. */
  lemma DeleteUndoesUpdateGroups(v: View, name: string, id: Int32)
    requires forall k :: 0 <= k < |v.entries| ==> v.entries[k].name != name
    requires name !in v.ids
    ensures (&& |v.entries| > 0
             && forall k :: 0 <= k < |v.entries| ==> v.entries[k].name in v.ids) ==>
              DeleteGroup(UpdateGroups(v, name, id), name).Done?
    ensures DeleteGroup(UpdateGroups(v, name, id), name).Done? ==>
              && SameRows(DeleteGroup(UpdateGroups(v, name, id), name).change.view.entries, v.entries)
              && DeleteGroup(UpdateGroups(v, name, id), name).change.view.ids == v.ids
  {
    var w := UpdateGroups(v, name, id);
    UpdateGroupsUnderFreshName(v, name, id);
    if DeleteGroup(w, name).Done? {
      DeleteGroupFrame(w, name);
    }
    if |v.entries| > 0 && forall k :: 0 <= k < |v.entries| ==> v.entries[k].name in v.ids {
      DeleteGroupFinishes(w, name);
    }
  }

  /** The row `updateGroups` adds under a fresh name is the one removal finds, and every row stays bound. */
  lemma UpdateGroupsUnderFreshName(v: View, name: string, id: Int32)
    requires forall k :: 0 <= k < |v.entries| ==> v.entries[k].name != name
    requires name !in v.ids
    ensures var w := UpdateGroups(v, name, id);
            && IndexOfName(w.entries, name) == |v.entries|
            && RemoveRow(w.entries, name) == v.entries
            && w.ids - {name} == v.ids
            && ((forall k :: 0 <= k < |v.entries| ==> v.entries[k].name in v.ids) ==>
                  forall k :: 0 <= k < |w.entries| ==> w.entries[k].name in w.ids)
  {
    var w := UpdateGroups(v, name, id);
    var n := |v.entries|;
    AppendedRowIsFound(v, id, name);
    assert w.entries == v.entries + [Entry(name, GroupStatus, false)];
    assert w.entries[..n] == v.entries && w.entries[n + 1..] == [];
    assert w.ids == v.ids[name := id];
    UnbindFresh(v.ids, name, id);
  }

  lemma UnbindFresh(m: map<string, Int32>, name: string, id: Int32)
    requires name !in m
    ensures m[name := id] - {name} == m
  {
    assert (m[name := id] - {name}).Keys == m.Keys;
  }

  /** `isPerson(s)`: as written, true exactly for the status "GROUP". */
  function IsPerson(s: string): bool {
    s == GroupStatus
  }

  /**
   As written, `isPerson` is inverted: it rejects every row a person gets
   (registered, or from a private conversation) and accepts every group row.
   */
  lemma IsPersonAcceptsGroupRows(v: View, id: Int32, name: string, conv: Conversation, own: Option<string>)
    ensures !IsPerson(UpdateRegister(v, id, name).entries[|v.entries|].status)
    ensures IsPerson(UpdateGroups(v, name, id).entries[|v.entries|].status)
    ensures RowFor(conv, own).Some? ==> (IsPerson(RowFor(conv, own).value.status) <==> !IsPrivate(conv))
  {
  }

  /**
   The rows the create-group dialog offers: as written it lists the STATUS of
   every row that `isPerson` accepts, so every offer is the string "GROUP".
   */
  function DialogCandidates(entries: seq<Entry>): (r: seq<string>)
    ensures |r| == multiset(Statuses(entries))[GroupStatus]
    ensures forall j :: 0 <= j < |r| ==> r[j] == GroupStatus
  {
    if |entries| == 0 then []
    else
      var rest := DialogCandidates(entries[1..]);
      assert Statuses(entries) == [entries[0].status] + Statuses(entries[1..]);
      assert multiset(Statuses(entries)) == multiset{entries[0].status} + multiset(Statuses(entries[1..]));
      if IsPerson(entries[0].status) then [entries[0].status] + rest else rest
  }

  /** The rows' statuses, in order. */
  function Statuses(entries: seq<Entry>): (ss: seq<string>)
    ensures |ss| == |entries| && forall k :: 0 <= k < |entries| ==> ss[k] == entries[k].status
  {
    if |entries| == 0 then [] else [entries[0].status] + Statuses(entries[1..])
  }

  /**
   The participant list the dialog submits: the first space-separated word
   of each chosen value, in order, then the own login. A chosen value made
   only of spaces splits into nothing and throws.
   */
  function GroupParticipants(chosen: seq<string>, own: string): (r: Option<seq<string>>)
    ensures r.None? <==> exists j :: 0 <= j < |chosen| && FirstWord(chosen[j]).None?
    ensures r.Some? ==> |r.value| == |chosen| + 1 && r.value[|chosen|] == own
    ensures r.Some? ==> forall j :: 0 <= j < |chosen| ==> FirstWord(chosen[j]) == Some(r.value[j])
  {
    if |chosen| == 0 then Some([own])
    else
      match FirstWord(chosen[0])
      case None => None
      case Some(w) =>
        match GroupParticipants(chosen[1..], own)
        case None =>
          assert forall j :: 1 <= j < |chosen| ==> chosen[j] == chosen[1..][j - 1];
          None
        case Some(rest) =>
          assert forall j :: 1 <= j < |chosen| ==> chosen[j] == chosen[1..][j - 1];
          Some([w] + rest)
  }

  /** What the "Leave group" menu item does. */
  datatype MenuChoice = Warned | Leave(id: Int32) | Thrown

  /**
   The "Leave group" menu item, as written: it reads the selected row's
   STATUS, warns when `isPerson` accepts it, and otherwise looks the status up
   as a name. No selection, or a status that is not a bound name, throws.
   */
  function LeaveMenu(v: View): (r: MenuChoice)
    ensures v.selected.None? || v.selected.value >= |v.entries| ==> r == Thrown
    ensures v.selected.Some? && v.selected.value < |v.entries| ==>
              var s := v.entries[v.selected.value].status;
              && (s == GroupStatus ==> r == Warned)
              && (r.Leave? ==> s in v.ids && r.id == v.ids[s])
              && (s != GroupStatus && s in v.ids ==> r == Leave(v.ids[s]))
              && (s != GroupStatus && s !in v.ids ==> r == Thrown)
  {
    if v.selected.None? || v.selected.value >= |v.entries| then Thrown
    else
      var s := v.entries[v.selected.value].status;
      if IsPerson(s) then Warned
      else if s in v.ids then Leave(v.ids[s])
      else Thrown
  }

  /** `updateHistory(history)`: the transcript becomes exactly the history; clearing the list drops its selection. */
  function UpdateHistory(v: View, history: seq<string>): (r: View)
    ensures r.transcript == history && r.picked == None
    ensures r == v.(transcript := r.transcript, picked := r.picked)
  {
    v.(transcript := history, picked := None)
  }

  /**
   `updateMessages(login, text)`: for the open conversation's row the line
   `login + ": " + text` is appended and the matches are forgotten; otherwise
   the sender's row gets the new-message icon. No selection, or no row for
   the sender, throws.
   */
  function UpdateMessages(v: View, login: string, text: string): (r: Option<View>)
    ensures r.Some? <==> && v.selected.Some? && v.selected.value < |v.entries|
                         && exists k :: 0 <= k < |v.entries| && v.entries[k].name == login
    ensures r.Some? && login == v.entries[v.selected.value].name ==>
              r.value == v.(transcript := v.transcript + [login + ": " + text], matches := None)
    ensures r.Some? && login != v.entries[v.selected.value].name ==>
              var i := IndexOfName(v.entries, login);
              && r.value == v.(entries := r.value.entries)
              && |r.value.entries| == |v.entries|
              && r.value.entries[i] == v.entries[i].(flagged := true)
              && forall k :: 0 <= k < |v.entries| && k != i ==> r.value.entries[k] == v.entries[k]
  {
    if v.selected.None? || v.selected.value >= |v.entries| then None
    else if login == v.entries[v.selected.value].name then
      Some(v.(transcript := v.transcript + [login + ": " + text], matches := None))
    else
      var i := IndexOfName(v.entries, login);
      if i < 0 then None else Some(v.(entries := v.entries[i := v.entries[i].(flagged := true)]))
  }

  /**
   The new-message icon `updateMessages` sets on a sender's row is the one
   the selection listener clears: selecting that row afterwards leaves it
   unflagged, whether or not the listener then throws.
   */
  lemma MessageIconClearedOnSelect(v: View, login: string, text: string)
    requires UpdateMessages(v, login, text).Some?
    requires login != v.entries[v.selected.value].name
    ensures var w := UpdateMessages(v, login, text).value;
            var i := IndexOfName(v.entries, login);
            && 0 <= i < |w.entries| && w.entries[i].flagged
            && !After(SetSelectedIndex(w, i)).view.entries[i].flagged
            && After(SetSelectedIndex(w, i)).view.selected == Some(i)
  {
    var i := IndexOfName(v.entries, login);
    assert v.entries[i].name == login;
  }

  /** Every line index the opaque search predicate `hit` accepts, in increasing order. */
  function Matches(lines: seq<string>, hit: string -> bool): (ms: seq<nat>)
    ensures forall j :: 0 <= j < |ms| ==> ms[j] < |lines| && hit(lines[ms[j]])
    ensures forall k :: 0 <= k < |lines| && hit(lines[k]) ==> k in ms
    ensures forall a, b :: 0 <= a < b < |ms| ==> ms[a] < ms[b]
  {
    if |lines| == 0 then []
    else
      var n := |lines| - 1;
      var earlier := Matches(lines[..n], hit);
      assert forall k :: 0 <= k < n ==> lines[..n][k] == lines[k];
      earlier + if hit(lines[n]) then [n] else []
  }

  /** `matches.indexOf(getSelectedIndex())`: where the selected line sits among the matches, or -1. */
  function PositionOf(ms: seq<nat>, picked: Option<nat>): (p: int)
    ensures -1 <= p < |ms|
    ensures p >= 0 ==> picked == Some(ms[p]) && forall k :: 0 <= k < p ==> ms[k] != ms[p]
    ensures p == -1 ==> picked.None? || picked.value !in ms
  {
    if picked.None? || |ms| == 0 then -1
    else if ms[0] == picked.value then 0
    else
      var q := PositionOf(ms[1..], picked);
      if q == -1 then -1 else q + 1
  }

  /**
   The Search button. With no (or no non-empty) matches it collects them and
   selects the first; as written it does so even when there is none, and
   `get(0)` then throws, leaving an empty match list and the selection as it
   was. With matches it selects the one after the current line, wrapping
   around; a match past the end of the transcript is ignored by the list.
   */
  function Search(v: View, hit: string -> bool): (r: View)
    ensures r == v.(matches := r.matches, picked := r.picked)
    ensures v.matches.None? || v.matches.value == [] ==>
              && r.matches == Some(Matches(v.transcript, hit))
              && (r.matches.value == [] ==> r.picked == v.picked)
              && (r.matches.value != [] ==> r.picked == Some(r.matches.value[0]))
    ensures v.matches.Some? && v.matches.value != [] ==>
              var ms := v.matches.value;
              var next := ms[(PositionOf(ms, v.picked) + 1) % |ms|];
              && r.matches == v.matches
              && r.picked == (if next < |v.transcript| then Some(next) else v.picked)
  {
    if v.matches.None? || v.matches.value == [] then
      var ms := Matches(v.transcript, hit);
      if ms == [] then v.(matches := Some([]))
      else v.(matches := Some(ms), picked := Some(ms[0]))
    else
      var ms := v.matches.value;
      var next := ms[(PositionOf(ms, v.picked) + 1) % |ms|];
      if next < |v.transcript| then v.(picked := Some(next)) else v
  }

  /** Once matches exist, a search that moves the selection moves it onto a match. */
  lemma SearchLandsOnMatch(v: View, hit: string -> bool)
    ensures var r := Search(v, hit);
            r.picked != v.picked ==> r.matches.Some? && r.picked.Some? && r.picked.value in r.matches.value
  {
  }

  /** Searching again from match k selects match k + 1, and the last match wraps to the first. */
  lemma SearchCyclesThroughMatches(v: View, hit: string -> bool, k: nat)
    requires v.matches.Some? && k < |v.matches.value|
    requires forall a, b :: 0 <= a < b < |v.matches.value| ==> v.matches.value[a] < v.matches.value[b]
    requires forall j :: 0 <= j < |v.matches.value| ==> v.matches.value[j] < |v.transcript|
    requires v.picked == Some(v.matches.value[k])
    ensures Search(v, hit).picked == Some(v.matches.value[(k + 1) % |v.matches.value|])
    ensures Search(v, hit).matches == v.matches
  {
    var ms := v.matches.value;
    assert PositionOf(ms, v.picked) == k;
  }

  /** Editing the search text forgets the matches and nothing else. */
  function SearchEdited(v: View): (r: View)
    ensures r.matches.None? && r == v.(matches := r.matches)
  {
    v.(matches := None)
  }

  /**
   The Send button's guard: the trimmed input is sent unless it is "" or " "
   (the second test can never fire after trimming).
   */
  function SendText(input: string): (r: Option<string>)
    ensures r.Some? <==> exists k :: 0 <= k < |input| && !IsTrimmable(input[k])
    ensures r.Some? ==> r.value == Trim(input) && r.value != []
  {
    var text := Trim(input);
    if text != "" && text != " " then Some(text) else None
  }

  /**
   The name of the row a mirrored conversation contributes: a group's name,
   or a private conversation's first participant other than the own login.
   A private conversation of only the own login contributes no row.
   */
  function Label(conv: Conversation, own: Option<string>): (r: Option<string>)
    ensures !IsPrivate(conv) ==> r == Some(conv.name)
    ensures r.None? <==> IsPrivate(conv) && forall k :: 0 <= k < |conv.participants| ==> own == Some(conv.participants[k])
    ensures r.Some? && IsPrivate(conv) ==> r.value in conv.participants && own != Some(r.value)
  {
    if IsPrivate(conv) then FirstOther(conv.participants, own) else Some(conv.name)
  }

  /** How many participants at the front of `ps` are the own login. */
  function OwnPrefix(ps: seq<string>, own: Option<string>): (n: nat)
    ensures n <= |ps|
    ensures forall k :: 0 <= k < n ==> own == Some(ps[k])
    ensures n < |ps| ==> own != Some(ps[n])
  {
    if |ps| == 0 || own != Some(ps[0]) then 0 else 1 + OwnPrefix(ps[1..], own)
  }

  /** The first participant that is not the own login (the loop's `break`). */
  function FirstOther(ps: seq<string>, own: Option<string>): (r: Option<string>)
    ensures r.Some? ==> r.value in ps && own != Some(r.value)
    ensures r.None? <==> forall k :: 0 <= k < |ps| ==> own == Some(ps[k])
    ensures r.Some? ==> exists i :: 0 <= i < |ps| && ps[i] == r.value && forall k :: 0 <= k < i ==> own == Some(ps[k])
  {
    if |ps| == 0 then None
    else if own != Some(ps[0]) then Some(ps[0])
    else FirstOther(ps[1..], own)
  }

  /**
   `FirstOther` skips exactly the leading run of own logins: it finds nothing
   when every participant is the own login, and otherwise the first one that is not.
   */
  lemma {:induction false} FirstOtherSkipsOwn(ps: seq<string>, own: Option<string>)
    ensures FirstOther(ps, own).None? <==> OwnPrefix(ps, own) == |ps|
    ensures FirstOther(ps, own).Some? ==>
              FirstOther(ps, own).value == ps[OwnPrefix(ps, own)] && own != Some(FirstOther(ps, own).value)
  {
    if |ps| > 0 && own == Some(ps[0]) {
      FirstOtherSkipsOwn(ps[1..], own);
    }
  }

  /** The row itself: "offline" for a private conversation, "GROUP" for the rest, without the icon. */
  function RowFor(conv: Conversation, own: Option<string>): (r: Option<Entry>)
    ensures r.Some? <==> Label(conv, own).Some?
    ensures r.Some? ==> r.value.name == Label(conv, own).value && !r.value.flagged
    ensures r.Some? ==> (r.value.status == OfflineStatus <==> IsPrivate(conv)) && (r.value.status == GroupStatus <==> !IsPrivate(conv))
  {
    match Label(conv, own)
    case None => None
    case Some(n) => Some(Entry(n, if IsPrivate(conv) then OfflineStatus else GroupStatus, false))
  }

  /** The positions in `order` whose conversation gets a row, in increasing order. */
  function Listed(m: Mirror, own: Option<string>, order: seq<Int32>): (ps: seq<nat>)
    requires forall i :: 0 <= i < |order| ==> order[i] in m
    ensures forall j :: 0 <= j < |ps| ==> ps[j] < |order| && RowFor(m[order[ps[j]]], own).Some?
    ensures forall a, b :: 0 <= a < b < |ps| ==> ps[a] < ps[b]
  {
    if |order| == 0 then []
    else
      var n := |order| - 1;
      ListedPrefix(m, own, order);
      Listed(m, own, order[..n]) + if RowFor(m[order[n]], own).Some? then [n] else []
  }

  /** Dropping the last id keeps every earlier id's conversation. */
  lemma ListedPrefix(m: Mirror, own: Option<string>, order: seq<Int32>)
    requires |order| > 0 && forall i :: 0 <= i < |order| ==> order[i] in m
    ensures forall i :: 0 <= i < |order| - 1 ==> order[..|order| - 1][i] == order[i] && order[i] in m
  {
  }

  /** No labelled conversation is skipped: every position whose conversation has a row is listed. */
  lemma {:induction false} ListedComplete(m: Mirror, own: Option<string>, order: seq<Int32>, i: nat)
    requires forall i :: 0 <= i < |order| ==> order[i] in m
    requires i < |order| && RowFor(m[order[i]], own).Some?
    ensures i in Listed(m, own, order)
  {
    var n := |order| - 1;
    ListedPrefix(m, own, order);
    if i < n {
      ListedComplete(m, own, order[..n], i);
    }
  }

  /**
   The directory the constructor builds, visiting the mirror's ids in `order`:
   one row per conversation that has a label, in that order, and each label
   bound to an id whose conversation carries it (a later conversation with
   the same label overwrites the binding).
   */
  function Directory(m: Mirror, own: Option<string>, order: seq<Int32>): (d: (seq<Entry>, map<string, Int32>))
    requires forall i :: 0 <= i < |order| ==> order[i] in m
    ensures forall j :: 0 <= j < |d.0| ==> d.0[j].name in d.1 && !d.0[j].flagged
    ensures forall n :: n in d.1 ==> d.1[n] in m && Label(m[d.1[n]], own) == Some(n)
    ensures forall i :: 0 <= i < |order| && Label(m[order[i]], own).Some? ==> Label(m[order[i]], own).value in d.1
    ensures forall n :: n in d.1 ==> exists j :: LastLabelled(m, own, order, j, n) && d.1[n] == order[j]
  {
    if |order| == 0 then ([], map[])
    else
      var n := |order| - 1;
      var (rows, ids) := Directory(m, own, order[..n]);
      assert forall i :: 0 <= i < n ==> order[..n][i] == order[i];
      match RowFor(m[order[n]], own)
      case None =>
        LastLabelledSkip(m, own, order, order[..n], ids);
        (rows, ids)
      case Some(e) =>
        LastLabelledBind(m, own, order, order[..n], ids, e.name, ids[e.name := order[n]]);
        (rows + [e], ids[e.name := order[n]])
  }

  /** An unlabelled last position keeps every binding's last-labelled witness. */
  lemma LastLabelledSkip(m: Mirror, own: Option<string>, order: seq<Int32>, p: seq<Int32>, ids: map<string, Int32>)
    requires |order| > 0 && forall i :: 0 <= i < |order| ==> order[i] in m
    requires Label(m[order[|order| - 1]], own).None?
    requires p == order[..|order| - 1]
    requires forall n :: n in ids ==> exists j :: LastLabelled(m, own, p, j, n) && ids[n] == p[j]
    ensures forall n :: n in ids ==> exists j :: LastLabelled(m, own, order, j, n) && ids[n] == order[j]
  {
    forall n | n in ids
      ensures exists j :: LastLabelled(m, own, order, j, n) && ids[n] == order[j]
    {
      var j :| LastLabelled(m, own, p, j, n) && ids[n] == p[j];
      assert p[j] == order[j];
      assert forall k :: j < k < |p| ==> p[k] == order[k];
      assert LastLabelled(m, own, order, j, n);
    }
  }

  /** Binding the last position's label to its id makes that position the binding's witness, and keeps the others. */
  lemma LastLabelledBind(m: Mirror, own: Option<string>, order: seq<Int32>, p: seq<Int32>, ids: map<string, Int32>, name: string, bound: map<string, Int32>)
    requires |order| > 0 && forall i :: 0 <= i < |order| ==> order[i] in m
    requires Label(m[order[|order| - 1]], own) == Some(name)
    requires p == order[..|order| - 1]
    requires forall n :: n in ids ==> exists j :: LastLabelled(m, own, p, j, n) && ids[n] == p[j]
    requires bound == ids[name := order[|order| - 1]]
    ensures forall n :: n in bound ==> exists j :: LastLabelled(m, own, order, j, n) && bound[n] == order[j]
  {
    var last := |order| - 1;
    forall n | n in bound
      ensures exists j :: LastLabelled(m, own, order, j, n) && bound[n] == order[j]
    {
      if n == name {
        assert LastLabelled(m, own, order, last, n);
      } else {
        var j :| LastLabelled(m, own, p, j, n) && ids[n] == p[j];
        assert p[j] == order[j];
        assert forall k :: j < k < |p| ==> p[k] == order[k];
        assert LastLabelled(m, own, order, j, n);
      }
    }
  }

  /** Position `j` is the last one in `order` whose conversation is labelled `n`. */
  predicate LastLabelled(m: Mirror, own: Option<string>, order: seq<Int32>, j: int, n: string)
    requires forall i :: 0 <= i < |order| ==> order[i] in m
  {
    && 0 <= j < |order| && Label(m[order[j]], own) == Some(n)
    && forall k :: j < k < |order| ==> Label(m[order[k]], own) != Some(n)
  }

  /** The rows are exactly the listed conversations' rows, in `order`. */
  lemma {:induction false} DirectoryFollowsListed(m: Mirror, own: Option<string>, order: seq<Int32>)
    requires forall i :: 0 <= i < |order| ==> order[i] in m
    ensures |Directory(m, own, order).0| == |Listed(m, own, order)|
    ensures forall j :: 0 <= j < |Listed(m, own, order)| ==>
              RowFor(m[order[Listed(m, own, order)[j]]], own) == Some(Directory(m, own, order).0[j])
  {
    if |order| > 0 {
      var n := |order| - 1;
      ListedPrefix(m, own, order);
      DirectoryFollowsListed(m, own, order[..n]);
    }
  }

  /**
   With `order` listing every id of the mirror: every labelled conversation
   gets its label bound, and every row is the row of some conversation.
   */
  lemma DirectoryCoversMirror(m: Mirror, own: Option<string>, order: seq<Int32>)
    requires forall k :: k in m <==> k in order
    ensures var d := Directory(m, own, order);
            && (forall k :: k in m && Label(m[k], own).Some? ==> Label(m[k], own).value in d.1)
            && (forall j :: 0 <= j < |d.0| ==> exists k :: k in m && RowFor(m[k], own) == Some(d.0[j]))
  {
    var d := Directory(m, own, order);
    var ps := Listed(m, own, order);
    DirectoryFollowsListed(m, own, order);
    forall k | k in m && Label(m[k], own).Some?
      ensures Label(m[k], own).value in d.1
    {
      var i :| 0 <= i < |order| && order[i] == k;
    }
    forall j | 0 <= j < |d.0|
      ensures exists k :: k in m && RowFor(m[k], own) == Some(d.0[j])
    {
      assert RowFor(m[order[ps[j]]], own) == Some(d.0[j]);
    }
  }

  /** Nothing listed means no conversation of `order` has a label. */
  lemma ListedEmptyNoLabel(m: Mirror, own: Option<string>, order: seq<Int32>)
    requires forall i :: 0 <= i < |order| ==> order[i] in m
    requires |Listed(m, own, order)| == 0
    ensures forall i :: 0 <= i < |order| ==> Label(m[order[i]], own).None?
  {
    forall i | 0 <= i < |order|
      ensures Label(m[order[i]], own).None?
    {
      if Label(m[order[i]], own).Some? {
        ListedComplete(m, own, order, i);
        assert false;
      }
    }
  }

  /** Something listed means some conversation has a label. */
  lemma ListedSomeLabel(m: Mirror, own: Option<string>, order: seq<Int32>)
    requires forall i :: 0 <= i < |order| ==> order[i] in m
    requires |Listed(m, own, order)| > 0
    ensures exists k :: k in m && Label(m[k], own).Some?
  {
    var k := order[Listed(m, own, order)[0]];
    assert k in m && Label(m[k], own).Some?;
  }

  /** With `order` listing every id of the mirror, nothing is listed exactly when no conversation has a label. */
  lemma ListedEmptyIff(m: Mirror, own: Option<string>, order: seq<Int32>)
    requires forall k :: k in m <==> k in order
    ensures |Listed(m, own, order)| > 0 <==> exists k :: k in m && Label(m[k], own).Some?
  {
    if |Listed(m, own, order)| > 0 {
      ListedSomeLabel(m, own, order);
    } else {
      ListedEmptyNoLabel(m, own, order);
      forall k | k in m
        ensures Label(m[k], own).None?
      {
        var i :| 0 <= i < |order| && order[i] == k;
      }
    }
  }

  /** With `order` listing every id of the mirror, the list is empty exactly when no conversation has a label. */
  lemma DirectoryEmptyIff(m: Mirror, own: Option<string>, order: seq<Int32>)
    requires forall k :: k in m <==> k in order
    ensures |Directory(m, own, order).0| > 0 <==> exists k :: k in m && Label(m[k], own).Some?
  {
    DirectoryFollowsListed(m, own, order);
    ListedEmptyIff(m, own, order);
  }

  /**
   The constructor: builds the directory from the mirror, in the map's own
   iteration order `order` (each id once), then selects row 0, which always
   succeeds because every listed name is bound.
   */
  function Open(m: Mirror, own: Option<string>, order: seq<Int32>): (r: Change)
    requires forall k :: k in m <==> k in order
    requires forall i, j :: 0 <= i < j < |order| ==> order[i] != order[j]
    ensures r.view.transcript == [] && r.view.matches == None && r.view.picked == None && r.view.input == ""
    ensures (r.view.entries, r.view.ids) == Directory(m, own, order)
    ensures forall j :: 0 <= j < |r.view.entries| ==> r.view.entries[j].name in r.view.ids
    ensures |r.view.entries| == 0 ==> r.view.selected == None && r.history == []
    ensures |r.view.entries| > 0 ==>
              r.view.selected == Some(0) && r.history == [r.view.ids[r.view.entries[0].name]]
  {
    var d := Directory(m, own, order);
    var v := View(d.0, d.1, None, [], None, None, "");
    if |d.0| == 0 then Change(v, [])
    else
      var ch := SetSelectedIndex(v, 0);
      assert d.0[0].name in d.1;
      assert ch.Done?;
      assert ch.change.view.entries == d.0;
      ch.change
  }

  /**
   What the opened window shows of the mirror: one row per conversation with
   a label, in `order`, each label bound to the last conversation in `order`
   that carries it, and an empty list exactly when no conversation has a label.
   */
  lemma OpenShowsMirror(m: Mirror, own: Option<string>, order: seq<Int32>)
    requires forall k :: k in m <==> k in order
    requires forall i, j :: 0 <= i < j < |order| ==> order[i] != order[j]
    ensures var v := Open(m, own, order).view;
            && |v.entries| == |Listed(m, own, order)|
            && (forall j :: 0 <= j < |v.entries| ==> RowFor(m[order[Listed(m, own, order)[j]]], own) == Some(v.entries[j]))
            && (forall j :: 0 <= j < |v.entries| ==> exists k :: k in m && RowFor(m[k], own) == Some(v.entries[j]))
            && (|v.entries| > 0 <==> exists k :: k in m && Label(m[k], own).Some?)
            && (forall k :: k in m && Label(m[k], own).Some? ==> Label(m[k], own).value in v.ids)
            && (forall n :: n in v.ids ==> v.ids[n] in m && Label(m[v.ids[n]], own) == Some(n))
            && (forall n :: n in v.ids ==> exists j :: LastLabelled(m, own, order, j, n) && v.ids[n] == order[j])
  {
    DirectoryCoversMirror(m, own, order);
    DirectoryEmptyIff(m, own, order);
    DirectoryFollowsListed(m, own, order);
  }
}

=== FILE: optional.dfy ===
/** A Java reference that may be null, as a value. */
module Optional {

  datatype Option<+T> = None | Some(value: T)

}

=== FILE: protocol.dfy ===
/**
 The wire record `Message` (command, content, file) and the objects that
 travel on the client's object streams. The command codes are integers of a
 `Protocol` class that is not part of this model; the closed set the client
 uses is an enumeration here.
 */
module Protocol {
  import opened Optional
  import opened JavaLang
  import opened Conversations

  datatype Command =
    | Register | Login | Online | Offline | Chat | History
    | CreateGroup | LeaveGroup | Exit | True | False

  /** A `java.io.File` slot: carried, never interpreted. */
  datatype Attachment = Attachment(path: string)

  /** `Message`: a command, a possibly-null string array and a possibly-null file. */
  datatype Message = Message(command: Command, content: Option<seq<string>>, file: Option<Attachment>) {

    function GetCommand(): Command {
      command
    }

    function GetContent(): Option<seq<string>> {
      content
    }

    function GetFile(): Option<Attachment> {
      file
    }
  }

  /**
   The getters give back every field a message holds: two messages are the
   same exactly when their getters agree, so nothing is stored that they do
   not return.
   */
  lemma GettersDetermineMessage(a: Message, b: Message)
    ensures a == b <==> a.GetCommand() == b.GetCommand() && a.GetContent() == b.GetContent() && a.GetFile() == b.GetFile()
  {
  }

  /** `new Message(command)`: content and file stay null. */
  function CommandOnly(command: Command): (m: Message)
    ensures m.GetCommand() == command && m.GetContent() == None && m.GetFile() == None
  {
    Message(command, None, None)
  }

  /** `new Message(command, content)`: the file stays null. */
  function WithContent(command: Command, content: seq<string>): (m: Message)
    ensures m.GetCommand() == command && m.GetContent() == Some(content) && m.GetFile() == None
  {
    Message(command, Some(content), None)
  }

  /** `new Message(command, content, file)`: all three fields stored. */
  function WithFile(command: Command, content: seq<string>, file: Attachment): (m: Message)
    ensures m.GetCommand() == command && m.GetContent() == Some(content) && m.GetFile() == Some(file)
  {
    Message(command, Some(content), Some(file))
  }

  /** `content[i]`: None when the array is null or too short (the access throws). */
  function Token(m: Message, i: nat): (r: Option<string>)
    ensures r.Some? <==> m.content.Some? && i < |m.content.value|
    ensures r.Some? ==> r.value == m.content.value[i]
  {
    match m.content
    case None => None
    case Some(xs) => if i < |xs| then Some(xs[i]) else None
  }

  /** `Integer.parseInt(content[i])`: None when the token is missing or not a number. */
  function IdToken(m: Message, i: nat): (r: Option<Int32>)
    ensures r.Some? ==> Token(m, i).Some? && ParseInt(Token(m, i).value) == r
    ensures Token(m, i).Some? ==> r == ParseInt(Token(m, i).value)
    ensures Token(m, i).None? ==> r.None?
  {
    match Token(m, i)
    case None => None
    case Some(t) => ParseInt(t)
  }

  /**
   An id the client writes as `String.valueOf(id)` at position `k` of a
   message's content is the id the receiving side parses back from that position.
   */
  lemma DecimalTokenReadsBack(c: Command, xs: seq<string>, k: nat, n: Int32)
    requires k < |xs| && xs[k] == Decimal(n)
    ensures Token(WithContent(c, xs), k) == Some(Decimal(n))
    ensures IdToken(WithContent(c, xs), k) == Some(n)
  {
    ParseDecimal(n);
  }

  /**
   An object read from or written to an object stream, as the client casts
   it: a `Message`, an `ArrayList<String>`, an `Integer`, a `Conversation`, a
   `Map<Integer, Conversation>`, or null.
   */
  datatype Obj =
    | Null
    | MsgObj(msg: Message)
    | ListObj(items: seq<string>)
    | IntObj(n: Int32)
    | ConvObj(conv: Conversation)
    | MapObj(convs: Mirror)
}

=== FILE: session.dfy ===
/**
 One client session: the client state, the main window (null until it is
 built) and everything written to the server so far. The reading thread
 (`startReadingThread`) is a loop over the objects the server sends; each
 iteration reads one message and, for some commands, the objects that
 follow it. Any exception ends the loop (the thread's catch closes the
 socket), and so do an EXIT message and a null object.
 */
module Session {
  import opened Optional
  import opened JavaLang
  import opened Conversations
  import opened Protocol
  import opened ClientModel
  import V = MainChatView

  datatype Session = Session(client: Client, view: Option<V.View>, sent: seq<Obj>)

  /** A window only exists after a login reply has set the own login. */
  predicate Valid(s: Session) {
    s.view.Some? ==> s.client.login.Some?
  }

  /** Why the reading loop ended. */
  datatype Stop =
    | Exited        // an EXIT message cleared the running flag
    | NullRead      // readObject returned null
    | EndOfStream   // the stream ended while an object was expected
    | Failed        // any other exception: a failed cast, a null dereference, a bad index or number

  /** The result of one iteration: carry on after `used` objects, or stop. */
  datatype Outcome = Continue(next: Session, used: nat) | Halt(last: Session, why: Stop)

  datatype Ending = Ending(last: Session, why: Stop)

  /** One HISTORY request per id, in order. */
  function HistoryRequests(ids: seq<Int32>): (objs: seq<Obj>)
    ensures |objs| == |ids| && forall i :: 0 <= i < |ids| ==> objs[i] == MsgObj(HistoryRequest(ids[i]))
  {
    if |ids| == 0 then [] else [MsgObj(HistoryRequest(ids[0]))] + HistoryRequests(ids[1..])
  }

  /** The session after a view operation: its view, and its history requests written after the earlier ones. */
  function Commit(s: Session, ch: V.Change): Session {
    s.(view := Some(ch.view), sent := s.sent + HistoryRequests(ch.history))
  }

  function WithMirror(s: Session, m: Mirror): Session {
    s.(client := s.client.(mirror := Some(m)))
  }

  /**
   ONLINE / OFFLINE [login]: with a window, the login's row changes status.
   Without one, ONLINE does nothing, while OFFLINE still reads the login for
   its console line, so a missing login throws there too.
   */
  function OnPresence(s: Session, msg: Message, online: bool): (r: Outcome)
    ensures r.Halt? ==> r == Halt(s, Failed)
    ensures r.Continue? ==> r.used == 1 && r.next == s.(view := r.next.view) && r.next.view.Some? == s.view.Some?
    ensures s.view.None? ==> (r.Continue? <==> online || Token(msg, 0).Some?) && (r.Continue? ==> r.next == s)
    ensures s.view.Some? ==>
              var who := Token(msg, 0);
              r.Continue? <==> who.Some? && exists k :: 0 <= k < |s.view.value.entries| && s.view.value.entries[k].name == who.value
    ensures s.view.Some? && r.Continue? ==>
              var i := V.IndexOfName(s.view.value.entries, Token(msg, 0).value);
              && 0 <= i < |r.next.view.value.entries|
              && r.next.view.value.entries[i].status == (if online then V.OnlineStatus else V.OfflineStatus)
  {
    if s.view.None? then
      if online || Token(msg, 0).Some? then Continue(s, 1) else Halt(s, Failed)
    else match Token(msg, 0)
      case None => Halt(s, Failed)
      case Some(who) =>
        var changed := if online then V.UpdateOnline(s.view.value, who) else V.UpdateOffline(s.view.value, who);
        match changed
        case None => Halt(s, Failed)
        case Some(v) => Continue(s.(view := Some(v)), 1)
  }

  /**
   MESSAGE [sender, id, text]: the sender is read in any case, the text only
   when there is a window. The mirror is not touched. The window hook is
   called with a single argument although `updateMessages` takes two, so
   its effect is not part of this model: the window is left as it was.
   */
  function OnChat(s: Session, msg: Message): (r: Outcome)
    ensures r == Continue(s, 1) || r == Halt(s, Failed)
    ensures r.Halt? <==> Token(msg, 0).None? || (s.view.Some? && Token(msg, 2).None?)
  {
    if Token(msg, 0).None? then Halt(s, Failed)
    else if s.view.None? then Continue(s, 1)
    else if Token(msg, 2).None? then Halt(s, Failed)
    else Continue(s, 1)
  }

  /**
   HISTORY [id] followed by the list of lines: the lines are appended to the
   mirrored log, then the window shows exactly those lines. A missing id (or
   window) throws; without a window the mirror has already changed.
   */
  function OnHistory(s: Session, msg: Message, payload: Obj): (r: Outcome)
    ensures var id := IdToken(msg, 0);
            r.Continue? <==>
              && payload.ListObj? && id.Some? && s.client.mirror.Some? && id.value in s.client.mirror.value
              && s.view.Some?
    ensures r.Continue? ==>
              && r.used == 2 && r.next.client.login == s.client.login && r.next.client.mirror.Some?
              && AppendsAt(s.client.mirror.value, r.next.client.mirror.value, IdToken(msg, 0).value, payload.items)
              && r.next.view == Some(V.UpdateHistory(s.view.value, payload.items))
              && r.next.sent == s.sent
    ensures r.Halt? ==>
              && r.why == Failed && r.last.client.login == s.client.login
              && r.last.view == s.view && r.last.sent == s.sent
    ensures var id := IdToken(msg, 0);
            r.Halt? && payload.ListObj? && id.Some? && s.client.mirror.Some? && id.value in s.client.mirror.value ==>
              r.last.client.mirror.Some? && AppendsAt(s.client.mirror.value, r.last.client.mirror.value, id.value, payload.items)
  {
    if !payload.ListObj? then Halt(s, Failed)
    else
      var id := IdToken(msg, 0);
      if id.None? || s.client.mirror.None? then Halt(s, Failed)
      else match ApplyEvent(s.client.mirror.value, s.client.login, HistoryEvent(id.value, payload.items))
        case None => Halt(s, Failed)
        case Some(m) =>
          var s1 := WithMirror(s, m);
          if s.view.None? then Halt(s1, Failed)
          else Continue(s1.(view := Some(V.UpdateHistory(s.view.value, payload.items))), 2)
  }

  /** CREATE_GROUP followed by the id and the conversation: the mirror binds it, then the window lists it. */
  function OnCreateGroup(s: Session, id: Int32, payload: Obj): (r: Outcome)
    ensures r.Continue? <==> payload.ConvObj? && s.client.mirror.Some? && s.view.Some?
    ensures r.Continue? ==>
              && r.used == 3
              && r.next.client == s.client.(mirror := Some(s.client.mirror.value[id := payload.conv]))
              && r.next.view == Some(V.UpdateGroups(s.view.value, payload.conv.name, id))
              && r.next.sent == s.sent
    ensures r.Halt? ==> r.why == Failed && r.last.view == s.view && r.last.sent == s.sent && r.last.client.login == s.client.login
    ensures r.Halt? && payload.ConvObj? && s.client.mirror.Some? ==>
              r.last.client.mirror == Some(s.client.mirror.value[id := payload.conv])
  {
    if !payload.ConvObj? || s.client.mirror.None? then Halt(s, Failed)
    else match ApplyEvent(s.client.mirror.value, s.client.login, GroupCreatedEvent(id, payload.conv))
      case None => Halt(s, Failed)
      case Some(m) =>
        var s1 := WithMirror(s, m);
        if s.view.None? then Halt(s1, Failed)
        else Continue(s1.(view := Some(V.UpdateGroups(s.view.value, payload.conv.name, id))), 3)
  }

  /**
   LEAVE_GROUP [login, id]: for the own login the window first deletes the
   group's row and only then the mirror drops the id; for anyone else the
   mirror drops that participant. When the deletion throws, what it already
   did to the window stays and the mirror is left as it was.
   */
  function OnLeaveGroup(s: Session, msg: Message): (r: Outcome)
    ensures r.Halt? ==> r.why == Failed && r.last.client == s.client && s.sent <= r.last.sent
    ensures r.Continue? ==>
              && r.used == 1 && Token(msg, 0).Some? && IdToken(msg, 1).Some?
              && s.client.mirror.Some? && IdToken(msg, 1).value in s.client.mirror.value
    ensures var user := Token(msg, 0);
            var id := IdToken(msg, 1);
            user.Some? && id.Some? && s.client.login.Some? && s.client.mirror.Some? && s.client.login != user ==>
              var m := s.client.mirror.value;
              && (r.Continue? <==> id.value in m)
              && (r.Continue? ==>
                    && r.next.view == s.view && r.next.sent == s.sent
                    && r.next.client == s.client.(mirror := Some(m[id.value := m[id.value].(participants := RemoveFirst(m[id.value].participants, user.value))])))
    ensures r.Continue? && s.client.login == Token(msg, 0) ==>
              var m := s.client.mirror.value;
              var id := IdToken(msg, 1).value;
              && r.next.client == s.client.(mirror := Some(m - {id}))
              && s.view.Some? && V.DeleteGroup(s.view.value, m[id].name).Done?
              && r.next.view == Some(V.DeleteGroup(s.view.value, m[id].name).change.view)
  {
    var user := Token(msg, 0);
    var id := IdToken(msg, 1);
    if user.None? || id.None? || s.client.login.None? || s.client.mirror.None? then Halt(s, Failed)
    else
      var m := s.client.mirror.value;
      match ApplyEvent(m, s.client.login, GroupLeftEvent(user.value, id.value))
      case None => Halt(s, Failed)
      case Some(m') =>
        if s.client.login != user then Continue(WithMirror(s, m'), 1)
        else if s.view.None? then Halt(s, Failed)
        else match V.DeleteGroup(s.view.value, m[id.value].name)
          case Threw(partial) => Halt(Commit(s, partial), Failed)
          case Done(ch) => Continue(WithMirror(Commit(s, ch), m'), 1)
  }

  /** One iteration of the reading loop, on the objects still to be read. */
  function Step(s: Session, input: seq<Obj>): (r: Outcome)
    ensures r.Continue? ==> 1 <= r.used <= |input| && r.used <= 3 && forall j :: 1 <= j < r.used ==> !input[j].MsgObj?
    ensures r.Halt? && r.why == Exited ==> |input| > 0 && input[0].MsgObj? && input[0].msg.command == Exit
    ensures r.Halt? && r.why == NullRead ==> |input| > 0 && input[0] == Null
    ensures r.Halt? && r.why == EndOfStream ==> forall j :: 1 <= j < |input| ==> !input[j].MsgObj?
    ensures var after := if r.Continue? then r.next else r.last;
            && after.client.login == s.client.login
            && after.view.Some? == s.view.Some?
            && s.sent <= after.sent
  {
    if |input| == 0 then Halt(s, EndOfStream)
    else match input[0]
      case Null => Halt(s, NullRead)
      case MsgObj(msg) => (
        match msg.GetCommand()
        case Online => OnPresence(s, msg, true)
        case Offline => OnPresence(s, msg, false)
        case Chat => OnChat(s, msg)
        case History =>
          if |input| < 2 then Halt(s, EndOfStream) else OnHistory(s, msg, input[1])
        case CreateGroup =>
          if |input| < 2 then Halt(s, EndOfStream)
          else if !input[1].IntObj? then Halt(s, Failed)
          else if |input| < 3 then Halt(s, EndOfStream)
          else OnCreateGroup(s, input[1].n, input[2])
        case LeaveGroup => OnLeaveGroup(s, msg)
        case Exit => Halt(s, Exited)
        case _ => Continue(s, 1))
      case _ => Halt(s, Failed)
  }

  /**
   ONLINE and OFFLINE change only the window: the login's row takes the
   new status, a login with no row throws, and the mirror is not touched.
   Without a window only an OFFLINE message missing its login throws.
   */
  lemma StepPresenceEffect(s: Session, msg: Message, rest: seq<Obj>)
    requires msg.command == Online || msg.command == Offline
    ensures var r := Step(s, [MsgObj(msg)] + rest);
            var who := Token(msg, 0);
            && (s.view.None? && (msg.command == Online || who.Some?) ==> r == Continue(s, 1))
            && (s.view.None? && msg.command == Offline && who.None? ==> r == Halt(s, Failed))
            && (s.view.Some? && who.None? ==> r == Halt(s, Failed))
            && (s.view.Some? && who.Some? ==>
                  var u := if msg.command == Online then V.UpdateOnline(s.view.value, who.value)
                           else V.UpdateOffline(s.view.value, who.value);
                  && (u.None? ==> r == Halt(s, Failed))
                  && (u.Some? ==> r == Continue(s.(view := Some(u.value)), 1)))
  {
    assert ([MsgObj(msg)] + rest)[0] == MsgObj(msg);
  }

  /** MESSAGE leaves the whole session as it was, whether it is read to the end or throws. */
  lemma StepChatKeeps(s: Session, msg: Message, rest: seq<Obj>)
    requires msg.command == Chat
    ensures var r := Step(s, [MsgObj(msg)] + rest);
            && (r.Continue? ==> r == Continue(s, 1))
            && (r.Halt? ==> r == Halt(s, Failed))
            && (r.Halt? <==> Token(msg, 0).None? || (s.view.Some? && Token(msg, 2).None?))
  {
    assert ([MsgObj(msg)] + rest)[0] == MsgObj(msg);
  }

  /** REGISTER, LOGIN, TRUE and FALSE replies arriving in the loop are read and ignored; EXIT stops it. */
  lemma StepOtherCommands(s: Session, msg: Message, rest: seq<Obj>)
    requires msg.command in {Register, Login, True, False, Exit}
    ensures Step(s, [MsgObj(msg)] + rest) == if msg.command == Exit then Halt(s, Exited) else Continue(s, 1)
  {
    assert ([MsgObj(msg)] + rest)[0] == MsgObj(msg);
  }

  /**
   HISTORY followed by the list: when read to the end, the mirror has taken
   the lines as a history event for the parsed id and the window shows them.
   */
  lemma StepHistoryEffect(s: Session, msg: Message, payload: Obj, rest: seq<Obj>)
    requires msg.command == History
    ensures var r := Step(s, [MsgObj(msg), payload] + rest);
            r.Continue? ==>
              && r.used == 2 && payload.ListObj? && IdToken(msg, 0).Some?
              && s.client.mirror.Some? && s.view.Some?
              && Some(r.next.client.mirror.value)
                 == ApplyEvent(s.client.mirror.value, s.client.login, HistoryEvent(IdToken(msg, 0).value, payload.items))
              && r.next.client == s.client.(mirror := r.next.client.mirror)
              && r.next.view == Some(V.UpdateHistory(s.view.value, payload.items))
              && r.next.sent == s.sent
  {
    var input := [MsgObj(msg), payload] + rest;
    assert input[0] == MsgObj(msg) && input[1] == payload;
  }

  /**
   CREATE_GROUP followed by the id and the conversation: when read to the
   end, the mirror has bound the conversation to the id and the window lists it.
   */
  lemma StepCreateGroupEffect(s: Session, msg: Message, id: Int32, conv: Conversation, rest: seq<Obj>)
    requires msg.command == Command.CreateGroup
    ensures var r := Step(s, [MsgObj(msg), IntObj(id), ConvObj(conv)] + rest);
            && (s.client.mirror.None? || s.view.None? ==> r.Halt? && r.why == Failed)
            && (r.Continue? ==>
                  && r.used == 3
                  && Some(r.next.client.mirror.value)
                     == ApplyEvent(s.client.mirror.value, s.client.login, GroupCreatedEvent(id, conv))
                  && r.next.client == s.client.(mirror := r.next.client.mirror)
                  && r.next.view == Some(V.UpdateGroups(s.view.value, conv.name, id))
                  && r.next.sent == s.sent)
  {
    var input := [MsgObj(msg), IntObj(id), ConvObj(conv)] + rest;
    assert input[0] == MsgObj(msg) && input[1] == IntObj(id) && input[2] == ConvObj(conv);
  }

  /**
   LEAVE_GROUP: when read to the end, the mirror has applied the leave; the
   window is untouched for another participant and has gone through
   `deleteGroup` for the own login. A deletion that throws keeps its
   partial effect on the window and leaves the mirror as it was.
   */
  lemma StepLeaveGroupEffect(s: Session, msg: Message, rest: seq<Obj>)
    requires msg.command == LeaveGroup
    ensures var r := Step(s, [MsgObj(msg)] + rest);
            var user := Token(msg, 0);
            var id := IdToken(msg, 1);
            && (r.Continue? ==>
                  && user.Some? && id.Some? && s.client.mirror.Some?
                  && Some(r.next.client.mirror.value)
                     == ApplyEvent(s.client.mirror.value, s.client.login, GroupLeftEvent(user.value, id.value))
                  && r.next.client == s.client.(mirror := r.next.client.mirror)
                  && (s.client.login != user ==> r.next.view == s.view && r.next.sent == s.sent)
                  && (s.client.login == user ==>
                        && s.view.Some? && id.value in s.client.mirror.value
                        && V.DeleteGroup(s.view.value, s.client.mirror.value[id.value].name).Done?
                        && r.next.view == Some(V.DeleteGroup(s.view.value, s.client.mirror.value[id.value].name).change.view)))
            && (r.Halt? ==> r.why == Failed && r.last.client == s.client)
  {
    assert ([MsgObj(msg)] + rest)[0] == MsgObj(msg);
  }

  /**
   The reading loop: iterations until one stops it. The running flag is
   only cleared by an EXIT message, and `readObject` only ends it by
   returning null, so either stop means such an object was read.
   */
  function Run(s: Session, input: seq<Obj>): (e: Ending)
    ensures e.why == Exited ==> exists j :: 0 <= j < |input| && input[j].MsgObj? && input[j].msg.command == Exit
    ensures e.why == NullRead ==> exists j :: 0 <= j < |input| && input[j] == Null
    decreases |input|
  {
    match Step(s, input)
    case Continue(next, used) =>
      var rest := input[used..];
      assert forall j :: 0 <= j < |rest| ==> rest[j] == input[used + j];
      Run(next, rest)
    case Halt(last, why) => Ending(last, why)
  }

  /** `startReadingThread`'s loop, iteration by iteration. */
  method ReadingLoop(s: Session, input: seq<Obj>) returns (e: Ending)
    ensures e == Run(s, input)
  {
    var cur := s;
    var pos := 0;
    while true
      invariant 0 <= pos <= |input|
      invariant Run(s, input) == Run(cur, input[pos..])
      decreases |input| - pos
    {
      var r := Step(cur, input[pos..]);
      match r
      case Halt(last, why) =>
        return Ending(last, why);
      case Continue(next, used) =>
        assert input[pos..][used..] == input[pos + used..];
        cur, pos := next, pos + used;
    }
  }

  /** An iteration that does not run out of input reads nothing past what it was given. */
  lemma StepExtends(s: Session, a: seq<Obj>, b: seq<Obj>)
    requires !(Step(s, a).Halt? && Step(s, a).why == EndOfStream)
    ensures Step(s, a + b) == Step(s, a)
  {
    assert |a| > 0;
    assert (a + b)[0] == a[0];
    if |a| > 1 {
      assert (a + b)[1] == a[1];
    }
    if |a| > 2 {
      assert (a + b)[2] == a[2];
    }
  }

  /** Once the loop has stopped for any reason but the end of the stream, later objects are never read. */
  lemma {:induction false} RunExtends(s: Session, a: seq<Obj>, b: seq<Obj>)
    requires Run(s, a).why != EndOfStream
    ensures Run(s, a + b) == Run(s, a)
    decreases |a|
  {
    StepExtends(s, a, b);
    match Step(s, a)
    case Halt(_, _) =>
    case Continue(next, used) =>
      assert (a + b)[used..] == a[used..] + b;
      RunExtends(next, a[used..], b);
  }

  /** A stream that ends with an EXIT message never runs out: the loop stops at or before it. */
  lemma {:induction false} ExitPrevents(s: Session, p: seq<Obj>, exit: Message)
    requires exit.command == Exit
    ensures Run(s, p + [MsgObj(exit)]).why != EndOfStream
    decreases |p|
  {
    var input := p + [MsgObj(exit)];
    if |p| > 0 {
      assert input[|p|].MsgObj?;
      match Step(s, input)
      case Halt(_, _) =>
      case Continue(next, used) =>
        assert used <= |p|;
        assert input[used..] == p[used..] + [MsgObj(exit)];
        ExitPrevents(next, p[used..], exit);
    }
  }

  /** After an EXIT message the loop ends: nothing that follows it is ever applied. */
  lemma ExitEndsReading(s: Session, p: seq<Obj>, exit: Message, q: seq<Obj>)
    requires exit.command == Exit
    ensures Run(s, p + [MsgObj(exit)] + q) == Run(s, p + [MsgObj(exit)])
  {
    ExitPrevents(s, p, exit);
    RunExtends(s, p + [MsgObj(exit)], q);
  }

  /** The reading loop keeps the own login, keeps or lacks a window throughout, and only adds to what was sent. */
  lemma {:induction false} RunPreserves(s: Session, input: seq<Obj>)
    ensures Run(s, input).last.client.login == s.client.login
    ensures Run(s, input).last.view.Some? == s.view.Some?
    ensures s.sent <= Run(s, input).last.sent
    ensures Valid(s) ==> Valid(Run(s, input).last)
    decreases |input|
  {
    match Step(s, input)
    case Halt(_, _) =>
    case Continue(next, used) =>
      RunPreserves(next, input[used..]);
  }

  /**
   A HISTORY reply for a mirrored conversation, with a window open, appends
   the lines to that conversation's log and shows exactly those lines.
   */
  lemma HistoryReplyEffect(s: Session, id: Int32, lines: seq<string>, rest: seq<Obj>)
    requires s.client.mirror.Some? && id in s.client.mirror.value && s.view.Some?
    ensures var r := Step(s, [MsgObj(HistoryRequest(id)), ListObj(lines)] + rest);
            && r.Continue? && r.used == 2
            && r.next.client.mirror.Some?
            && AppendsAt(s.client.mirror.value, r.next.client.mirror.value, id, lines)
            && r.next.view.Some? && r.next.view.value.transcript == lines
            && r.next.sent == s.sent
  {
  }

  /**
   When the server echoes this client's own leave request, the loop either
   stops on an exception or the mirror no longer holds the conversation.
   */
  lemma OwnLeaveRemovesConversation(s: Session, id: Int32, rest: seq<Obj>)
    requires s.client.login.Some? && s.client.mirror.Some?
    ensures var r := Step(s, [MsgObj(LeaveRequest(s.client.login.value, id))] + rest);
            && (r.Continue? ==> r.next.client.mirror == Some(s.client.mirror.value - {id}))
            && (r.Halt? ==> r.why == Failed)
  {
  }

  /**
   The main window's constructor on a logged-in client: null mirror throws;
   otherwise the directory is built and row 0 selected, and its history
   request is written.
   */
  function Start(c: Client, order: seq<Int32>): (r: Option<Session>)
    requires c.mirror.Some? ==> forall k :: k in c.mirror.value <==> k in order
    requires forall i, j :: 0 <= i < j < |order| ==> order[i] != order[j]
    ensures r.Some? <==> c.mirror.Some?
    ensures r.Some? ==> r.value.client == c && r.value.view.Some?
    ensures r.Some? ==> var ch := V.Open(c.mirror.value, c.login, order);
                        r.value.view == Some(ch.view) && r.value.sent == HistoryRequests(ch.history)
    ensures r.Some? && c.login.Some? ==> Valid(r.value)
  {
    if c.mirror.None? then None
    else
      var ch := V.Open(c.mirror.value, c.login, order);
      Some(Session(c, Some(ch.view), HistoryRequests(ch.history)))
  }

  /**
   The Send button: the selected row's id is looked up first (no selection,
   or an unbound name, throws and nothing happens); then the trimmed input
   is sent unless blank, the local echo goes to the mirror and the line
   `login + ": " + text` to the transcript, and the input is cleared.
   */
  function Send(s: Session): (r: Session)
    requires Valid(s) && s.view.Some?
    ensures var v := s.view.value;
            var ready := v.selected.Some? && v.selected.value < |v.entries| && v.entries[v.selected.value].name in v.ids;
            && (!ready || V.SendText(v.input).None? ==> r == s)
            && (ready && V.SendText(v.input).Some? ==>
                  var id := v.ids[v.entries[v.selected.value].name];
                  var text := Trim(v.input);
                  && r.client == SendMessage(s.client, id, text).0
                  && r.sent == s.sent + [MsgObj(WithContent(Chat, [s.client.login.value, Decimal(id), text]))]
                  && r.view == Some(v.(transcript := v.transcript + [s.client.login.value + ": " + text], input := "")))
  {
    var v := s.view.value;
    if v.selected.None? || v.selected.value >= |v.entries| then s
    else
      var name := v.entries[v.selected.value].name;
      if name !in v.ids then s
      else match V.SendText(v.input)
        case None => s
        case Some(text) =>
          var (c, request) := SendMessage(s.client, v.ids[name], text);
          var login := s.client.login.value;
          Session(c, Some(v.(transcript := v.transcript + [login + ": " + text], input := "")), s.sent + [MsgObj(request)])
  }

  /** Sending shows the same line in the transcript that it appends to the mirrored log. */
  lemma SendEchoesOneLine(s: Session)
    requires Valid(s) && s.view.Some? && s.client.mirror.Some?
    requires var v := s.view.value;
             v.selected.Some? && v.selected.value < |v.entries| && v.entries[v.selected.value].name in v.ids
             && v.ids[v.entries[v.selected.value].name] in s.client.mirror.value
    requires V.SendText(s.view.value.input).Some?
    ensures var v := s.view.value;
            var id := v.ids[v.entries[v.selected.value].name];
            var r := Send(s);
            && r.client.mirror.Some? && id in r.client.mirror.value
            && |r.view.value.transcript| > 0
            && |r.client.mirror.value[id].messages| > 0
            && r.client.mirror.value[id].messages[|r.client.mirror.value[id].messages| - 1]
               == r.view.value.transcript[|r.view.value.transcript| - 1]
  {
  }

  /**
   A click on sidebar row `i`. The listener runs on the event thread: when it
   throws, the new selection and the cleared icon stay and nothing is sent.
   */
  function Select(s: Session, i: nat): (r: Session)
    requires s.view.Some?
    ensures r.client == s.client && r.view.Some?
    ensures i >= |s.view.value.entries| ==> r == s
    ensures i < |s.view.value.entries| ==>
              && r.view.value.selected == Some(i)
              && |r.view.value.entries| == |s.view.value.entries|
              && r.view.value.entries[i].name == s.view.value.entries[i].name
    ensures s.view.value.selected == Some(i) ==> r == s
    ensures var v := s.view.value;
            i < |v.entries| && v.selected != Some(i) ==>
              && !r.view.value.entries[i].flagged
              && (v.entries[i].name in v.ids ==> r.sent == s.sent + [MsgObj(HistoryRequest(v.ids[v.entries[i].name]))])
              && (v.entries[i].name !in v.ids ==> r.sent == s.sent)
  {
    Commit(s, V.After(V.SetSelectedIndex(s.view.value, i)))
  }

  /** The "Leave group" menu item: writes a leave request only for the id its status lookup finds. */
  function LeaveMenu(s: Session): (r: Session)
    requires Valid(s) && s.view.Some?
    ensures V.LeaveMenu(s.view.value).Leave? ==>
              r.sent == s.sent + [MsgObj(LeaveRequest(s.client.login.value, V.LeaveMenu(s.view.value).id))]
    ensures !V.LeaveMenu(s.view.value).Leave? ==> r == s
    ensures r.client == s.client && r.view == s.view
  {
    match V.LeaveMenu(s.view.value)
    case Leave(id) => s.(sent := s.sent + [MsgObj(LeaveRequest(s.client.login.value, id))])
    case _ => s
  }

  /** Selecting a group row and choosing "Leave group" never writes a leave request, as written. */
  lemma LeaveMenuNeverLeavesGroups(s: Session)
    requires Valid(s) && s.view.Some?
    requires var v := s.view.value;
             v.selected.Some? && v.selected.value < |v.entries| && v.entries[v.selected.value].status == V.GroupStatus
    ensures LeaveMenu(s) == s
  {
  }

  /**
   The group dialog's Create button, for rows chosen among the dialog's
   offers: a CREATE_GROUP request whose participant list is one "GROUP" per
   chosen row and then the own login, since the dialog offers statuses.
   */
  function CreateGroup(s: Session, name: string, chosen: seq<string>): (r: Session)
    requires Valid(s) && s.view.Some?
    requires forall j :: 0 <= j < |chosen| ==> chosen[j] in V.DialogCandidates(s.view.value.entries)
    ensures |r.sent| == |s.sent| + 2 && r.sent[..|s.sent|] == s.sent
    ensures r.sent[|s.sent|] == MsgObj(CommandOnly(Command.CreateGroup))
    ensures r.sent[|s.sent| + 1].ConvObj?
    ensures var conv := r.sent[|s.sent| + 1].conv;
            && conv.name == name && conv.messages == []
            && |conv.participants| == |chosen| + 1
            && conv.participants[|chosen|] == s.client.login.value
            && forall j :: 0 <= j < |chosen| ==> conv.participants[j] == V.GroupStatus
    ensures r.client == s.client && r.view == s.view
  {
    FirstWordOfWord(V.GroupStatus);
    var own := s.client.login.value;
    assert forall j :: 0 <= j < |chosen| ==> chosen[j] == V.GroupStatus by {
      forall j | 0 <= j < |chosen|
        ensures chosen[j] == V.GroupStatus
      {
        var offers := V.DialogCandidates(s.view.value.entries);
        assert chosen[j] in offers;
      }
    }
    match V.GroupParticipants(chosen, own)
    case None => s
    case Some(ps) => s.(sent := s.sent + CreateGroupRequest(name, ps))
  }
}
